=== FILE: README.md ===
# Rait scheme matching, in Dafny

This project models the scheme-matching engine of Rait, a bilingual (English/Hindi) web portal
for farmers, together with the small state machines around it. Everything is written as pure
functions over immutable datatypes, with the properties proved as contracts and lemmas.

The engine has two order-preserving filters over the static catalog of government schemes:

- The **scheme browser**, which keeps the schemes that pass all four of its tests:
  - a case-insensitive text search over the active language's name and description;
  - a state test, where the sentinel `All India` matches every state;
  - a crop test, where the sentinel `All Crops` matches every crop;
  - an exact type test.
- The **eligibility checker**, which filters the same catalog by a farmer's profile. It uses the
  same state and crop rules, and adds a landholding rule: a scheme tagged for small or marginal
  farmers is dropped for a holding above 2 hectares.

Both are instances of one generic `Filter` (module `Seqs`). The model proves about `Filter` that:

- it returns an order-preserving subsequence of its input;
- each element it keeps appears exactly as often as in the input;
- it is the only sequence with both of those properties.

The three-scheme catalog is modelled literally. Module `CatalogFacts` states what the filters make
of it. Module `SchemeTexts` holds the facts about the catalog's strings that decide those
outcomes.

The surrounding state machines are:

- the language hook: English by default, a saved value adopted on load, and a toggle that saves
  the new value;
- the news-ticker rotation;
- the SMS-alert opt-in gate and the alert severity colours;
- the admin panel's login, logout and tab state;
- the top-level section router: its views, the back bar, the footer and the hero buttons.

Modules: `Wrappers` (Option), `Seqs`, `Machines` (event-driven state machines), `Text` (ASCII lower-casing and substring search),
`SchemeTexts`, `Schemes`, `SchemeDiscovery`, `EligibilityChecker`, `CatalogFacts`,
`LanguageHook`, `NewsTicker`, `AlertsAndLocation`, `AdminPanel`, `AppRouter`.

Two details of the code decide outcomes and are modelled as written:

- **Sentinels.** A scheme whose state is `All India` matches every state choice, and one whose crop
  list holds `All Crops` matches every crop choice.
- **Case-sensitive smallholder test.** A tag counts as a smallholder tag only when it contains
  `Small` or `marginal` exactly as written. So "Sharecroppers with valid documents" does not count,
  even though it starts with a capital `S`.

The landholding test also checks that a value is present and nonzero before comparing it with 2, so an
entered `0` is treated like no answer. Since 0 is not above 2, this never changes the list
(`EligibilityChecker.ZeroLandholdingLikeNone`).

Two parts of the page are never reached by any control:

- **Alerts view.** Nothing sets the section to `alerts`, so the router's single alerts view never
  shows (`AppRouter.AlertsViewUnreachable`). The alerts card appears only inside the home view.
- **Language toggle.** The app passes the language toggle to the header, but the header
  (`src/components/Header.tsx`, line 3) takes no properties and renders no language button. No
  control in the shipped page calls `LanguageHook.ToggleLanguage`. The hook's model describes what
  the toggle does when called.

## Model

| member | source | states |
|---|---|---|
| Seqs.Filter | src/components/SchemeDiscovery.tsx:21 | the result keeps exactly the elements passing the test, never more than the input, as an order-preserving subsequence of it |
| Seqs.FilterCounts | src/components/SchemeDiscovery.tsx:21 | each kept element occurs exactly as often as in the input and a rejected one not at all: nothing is duplicated or invented |
| Seqs.FilterUnique | src/components/SchemeDiscovery.tsx:21 | any order-preserving subsequence with those occurrence counts is the filter's result, so the filter is pinned down by an independent description |
| Seqs.FilterMonotone | src/components/SchemeDiscovery.tsx:21 | a stricter test gives a subsequence of a weaker test's result |
| Seqs.FilterConjunction | src/components/SchemeDiscovery.tsx:32 | filtering by a conjunction equals filtering twice, in either order |
| Seqs.FilterIdempotent | src/components/SchemeDiscovery.tsx:21 | filtering a filtered list again changes nothing |
| Text.Lower | src/components/SchemeDiscovery.tsx:23 | lower-casing keeps the length, leaves no capital A-Z, and changes only capitals, each to its small letter |
| Text.LowerIdempotent | src/components/SchemeDiscovery.tsx:23-26 | lower-casing twice equals lower-casing once |
| Text.IncludesEmpty | src/components/SchemeDiscovery.tsx:23-26 | the empty string occurs in every text |
| Text.LetterMissingInBothCases | src/components/SchemeDiscovery.tsx:23-26 | a case-insensitive search fails when some letter of the term is absent from the text in both cases |
| Schemes.TypeNameInjective | src/types/index.ts:9 | different scheme types have different names, so the type test matches one type at most |
| SchemeDiscovery.FilteredSchemes | src/components/SchemeDiscovery.tsx:20-34 | the shown list is a subsequence of the catalog, and a scheme is shown iff it passes the search, state, crop and type tests together |
| SchemeDiscovery.EmptySearchMatchesAll | src/components/SchemeDiscovery.tsx:22-26 | an empty search term matches every scheme in every language |
| SchemeDiscovery.EmptyQueryShowsCatalog | src/components/SchemeDiscovery.tsx:22-30 | with nothing typed or chosen the whole catalog is shown in order |
| SchemeDiscovery.SearchIgnoresTermCase | src/components/SchemeDiscovery.tsx:22-26 | lower-casing the typed term first does not change the result |
| SchemeDiscovery.SearchIsLocaleScoped | src/components/SchemeDiscovery.tsx:22-26 | the search depends only on the active language's name and description; the other language's texts are never consulted |
| SchemeDiscovery.SettingAFilterNarrows | src/components/SchemeDiscovery.tsx:28-32 | setting any one of the four controls gives a subsequence of the result with that control cleared |
| SchemeDiscovery.FilterIsConjunctionOfPasses | src/components/SchemeDiscovery.tsx:21-32 | the filter equals the four tests applied one after another |
| SchemeDiscovery.BlankSearchIsStructural | src/components/SchemeDiscovery.tsx:22-32 | with an empty search only the state, crop and type tests decide |
| SchemeDiscovery.RefilteringIsStable | src/components/SchemeDiscovery.tsx:20-34 | filtering the shown list again with the same query gives the same list |
| SchemeDiscovery.StateFilterIdleOnNationwideCatalog | src/components/SchemeDiscovery.tsx:28 | in a catalog of nationwide schemes the state control has no effect |
| SchemeDiscovery.EmptyCropListNeedsNoCropChoice | src/components/SchemeDiscovery.tsx:29 | a scheme with an empty crop list is shown only while no crop is chosen |
| SchemeDiscovery.OnlyCropChosen | src/components/SchemeDiscovery.tsx:29-32 | with only a crop chosen, the result is what the crop test alone keeps |
| SchemeDiscovery.StateChoiceExample | src/components/SchemeDiscovery.tsx:28 | choosing Punjab over Maharashtra, Punjab and nationwide schemes keeps the Punjab and nationwide ones, in order |
| EligibilityChecker.EligibleSchemes | src/components/EligibilityChecker.tsx:27-42 | the eligible list is a subsequence of the catalog, and a scheme is on it iff no state, crop or landholding rule excludes it |
| EligibilityChecker.LandholdingRule | src/components/EligibilityChecker.tsx:37 | a smallholder scheme is excluded iff a holding above 2 is entered; exactly 2 keeps it |
| EligibilityChecker.SmallholderExample | src/components/EligibilityChecker.tsx:37 | a scheme tagged "Small and marginal farmers" is dropped for 3.5 and kept for 1.5 or no answer |
| EligibilityChecker.IgnoredFieldsIrrelevant | src/components/EligibilityChecker.tsx:27-42 | income, category and farmer type never change the list |
| EligibilityChecker.UnansweredProfileListsCatalog | src/components/EligibilityChecker.tsx:28-41 | no state, no crop and no or zero landholding list the whole catalog |
| EligibilityChecker.ZeroLandholdingLikeNone | src/components/EligibilityChecker.tsx:37 | an entered holding of 0 lists the same schemes as no answer, and the rule excludes a smallholder scheme exactly when a holding above 2 is present |
| EligibilityChecker.LargerHoldingNarrows | src/components/EligibilityChecker.tsx:37 | a larger landholding lists a subsequence of what a smaller one (or none) lists |
| EligibilityChecker.AgreesWithDiscovery | src/components/EligibilityChecker.tsx:28-32 | without a landholding the checker's list equals the browser's for the same state and crop; with one it is a subsequence of it |
| EligibilityChecker.CheckEligibility | src/components/EligibilityChecker.tsx:44-51 | after a check the stored list is the filter's output, results are shown, the profile is kept, and the announced count is the list's length |
| EligibilityChecker.UpdateField | src/components/EligibilityChecker.tsx:21-23 | the edited field takes the entered value, every other field keeps its value, and the last result and its visibility stay alone |
| EligibilityChecker.IgnoredInputsDoNotChangeCheck | src/components/EligibilityChecker.tsx:21-42 | answering income, category or farmer type does not change what the next check lists |
| EligibilityChecker.EditAll | src/components/EligibilityChecker.tsx:21-23 | editing answers one after another never touches the stored list or whether it is shown |
| EligibilityChecker.NothingShownBeforeFirstCheck | src/components/EligibilityChecker.tsx:15-19 | from the opening state, however the form is filled in, nothing is shown and no list is held until the first check, which then lists what the filled-in profile is eligible for |
| SchemeTexts.SmallAndMarginalTagHasSmall | src/data/schemes.ts:13 | PM-KISAN's first tag contains "Small" |
| SchemeTexts.AllFarmersTagHasNeither | src/data/schemes.ts:27 | "All farmers" contains neither "Small" nor "marginal" |
| SchemeTexts.SharecroppersTagShape | src/data/schemes.ts:27 | the sharecroppers tag is one capital S followed by 'h' and no further S |
| SchemeTexts.SharecroppersTagLacksSmall | src/data/schemes.ts:27 | the case-sensitive test does not find "Small" in the sharecroppers tag |
| SchemeTexts.SharecroppersTagLacksMarginal | src/data/schemes.ts:27 | the sharecroppers tag does not contain "marginal" |
| SchemeTexts.KisanInEnglishName | src/data/schemes.ts:6 | "kisan" and "KISAN" both lower-case to a word found in PM-KISAN's lower-cased English name |
| SchemeTexts.HindiNameHasNoLatinLetter | src/data/schemes.ts:7 | PM-KISAN's Hindi name contains no Latin letter |
| SchemeTexts.HindiDescriptionHasNoLatinLetter | src/data/schemes.ts:9 | PM-KISAN's Hindi description contains no Latin letter |
| SchemeTexts.KisanNotInLatinFreeText | src/components/SchemeDiscovery.tsx:23-24 | a text without Latin letters never matches a search for "kisan" |
| SchemeTexts.KisanNotInHindiTexts | src/data/schemes.ts:7-9 | "kisan" occurs in neither Hindi text of PM-KISAN |
| CatalogFacts.IdsDistinct | src/data/schemes.ts:3-44 | the three ids are pairwise distinct |
| CatalogFacts.OnlyPmKisanHasDeadline | src/data/schemes.ts:16 | a scheme has a deadline iff its id is 1 |
| CatalogFacts.CatalogIsNationwide | src/data/schemes.ts:10-37 | every shipped scheme is nationwide |
| CatalogFacts.FilterCatalog | src/data/schemes.ts:3-44 | filtering the catalog keeps each of the three schemes in order exactly when it passes |
| CatalogFacts.PmKisanIsSmallholder | src/data/schemes.ts:13 | PM-KISAN carries a small/marginal tag |
| CatalogFacts.CropInsuranceIsNotSmallholder | src/data/schemes.ts:27 | crop insurance carries none |
| CatalogFacts.SoilHealthCardIsNotSmallholder | src/data/schemes.ts:40 | the soil health card carries none |
| CatalogFacts.LandholdingOnCatalog | src/components/EligibilityChecker.tsx:36-39 | a holding above 2 lists exactly crop insurance and soil health card; at most 2 lists all three |
| CatalogFacts.AnyStateKeepsCatalog | src/data/schemes.ts:10-37 | any state answer or state choice keeps all three schemes in both filters |
| CatalogFacts.CropTestOnSchemes | src/data/schemes.ts:11-38 | PM-KISAN and the soil card pass every crop; crop insurance passes exactly no crop, Rice, Wheat, Cotton and Sugarcane |
| CatalogFacts.CropTestOnCatalog | src/components/SchemeDiscovery.tsx:29 | the crop test keeps all three for those crops and drops only crop insurance otherwise |
| CatalogFacts.BrowserCropChoiceOnCatalog | src/components/SchemeDiscovery.tsx:28-32 | the same outcome when a crop is the browser's only choice |
| CatalogFacts.CheckerCropChoiceOnCatalog | src/components/EligibilityChecker.tsx:32 | the same outcome when a crop is the checker's only answer |
| CatalogFacts.LoanTypeShowsNothing | src/data/schemes.ts:12-39 | choosing the loan type shows no scheme, in any language |
| CatalogFacts.KisanSearchIsLocaleScoped | src/components/SchemeDiscovery.tsx:22-26 | "kisan" and "KISAN" find PM-KISAN in English, and "kisan" does not find it in Hindi |
| LanguageHook.Initial | src/hooks/useLanguage.ts:5 | before the mount effect the language is English whatever is stored |
| LanguageHook.Mount | src/hooks/useLanguage.ts:7-12 | a non-empty saved value is adopted unchecked; an absent or empty one leaves the language alone; storage is untouched |
| LanguageHook.LoadedLanguage | src/hooks/useLanguage.ts:5-12 | after loading, the language is the saved value when one is saved and non-empty, and English otherwise |
| LanguageHook.Toggle | src/hooks/useLanguage.ts:15 | the result is always English or Hindi, and Hindi exactly when the input was English |
| LanguageHook.ToggleLanguage | src/hooks/useLanguage.ts:14-18 | a toggle switches the language and saves the new value under the language key, leaving other keys alone |
| LanguageHook.ToggleInvolution | src/hooks/useLanguage.ts:15 | on English and Hindi, two toggles give back the original and one changes it |
| LanguageHook.ToggleNormalisesUnexpected | src/hooks/useLanguage.ts:15 | any other value toggles to English, then to Hindi |
| LanguageHook.ToggleSurvivesReload | src/hooks/useLanguage.ts:8-17 | the language a toggle saves is the one the next page load shows |
| LanguageHook.TwoTogglesThenReload | src/hooks/useLanguage.ts:8-17 | two toggles and a reload bring back a real language that was current before them |
| NewsTicker.Step | src/components/NewsTicker.tsx:28 | a tick moves a valid index to the next one, wrapping from the last to 0, and stays in bounds |
| NewsTicker.Steps | src/components/NewsTicker.tsx:26-32 | any number of ticks keeps a valid index in bounds |
| NewsTicker.Headline | src/components/NewsTicker.tsx:42 | English and Hindi select the matching headline text; any other language shows nothing |
| NewsTicker.IndexAlwaysInBounds | src/components/NewsTicker.tsx:24-28 | from the initial index 0, the index is always a valid position |
| NewsTicker.StepsCompose | src/components/NewsTicker.tsx:28 | a ticks then b ticks equal a + b ticks |
| NewsTicker.StepsWithoutWrap | src/components/NewsTicker.tsx:28 | before the end is reached, k ticks advance the index by k |
| NewsTicker.FullCycle | src/components/NewsTicker.tsx:28 | after exactly n ticks every valid index returns to itself |
| NewsTicker.NoEarlyRepeat | src/components/NewsTicker.tsx:28 | within one cycle no index repeats |
| NewsTicker.ShippedCycle | src/components/NewsTicker.tsx:9-28 | with the three shipped headlines the index runs 0, 1, 2, 0 |
| AlertsAndLocation.Edited | src/components/AlertsAndLocation.tsx:132-135 | an edit keeps the text before and after the selection, puts a prefix of the inserted text in between, and takes as much of it as the ten-character limit leaves room for; an over-full field only loses the selection |
| AlertsAndLocation.TypingAtEndKeepsPrefix | src/components/AlertsAndLocation.tsx:132-135 | typing at the end of the field keeps at most ten characters of the old value followed by the new text, and all of it when it fits |
| AlertsAndLocation.FullFieldRefusesInsertion | src/components/AlertsAndLocation.tsx:135 | a ten-character field refuses an insertion at any cursor position and keeps its number |
| AlertsAndLocation.Next | src/components/AlertsAndLocation.tsx:45-54 | nothing changes once alerts are on; a click enables alerts iff the number has exactly ten characters; an edit stores what the limited field holds afterwards |
| AlertsAndLocation.ButtonMatchesGate | src/components/AlertsAndLocation.tsx:142 | the button is live exactly when the handler would accept the number |
| AlertsAndLocation.NextPreservesValid | src/components/AlertsAndLocation.tsx:46-47 | every step keeps the number at most ten characters, and exactly ten while alerts are on |
| AlertsAndLocation.RunPreservesValid | src/components/AlertsAndLocation.tsx:46-47 | the same holds after any sequence of actions |
| AlertsAndLocation.EnabledIsPermanent | src/components/AlertsAndLocation.tsx:14-47 | once alerts are enabled, no sequence of actions changes the card |
| AlertsAndLocation.TenCharactersEnable | src/components/AlertsAndLocation.tsx:46-47 | typing any ten characters, digits or not, and clicking enables alerts with that number |
| AlertsAndLocation.ShortNumberDoesNotEnable | src/components/AlertsAndLocation.tsx:142 | typing fewer than ten characters and clicking leaves alerts off |
| AlertsAndLocation.SeverityTone | src/components/AlertsAndLocation.tsx:56-62 | high is red, medium yellow, low green, and every other severity grey |
| AlertsAndLocation.ToneClassLengths | src/components/AlertsAndLocation.tsx:58-61 | the four class strings have different lengths |
| AlertsAndLocation.ToneClassesInjective | src/components/AlertsAndLocation.tsx:56-62 | different tones get different class strings |
| AlertsAndLocation.SameColorIffSameTone | src/components/AlertsAndLocation.tsx:56-62 | two severities get the same classes iff they have the same tone |
| AdminPanel.TabOf | src/components/AdminPanel.tsx:108-116 | an id maps to a tab only when that tab's id is that id |
| AdminPanel.TabIdRoundTrip | src/components/AdminPanel.tsx:108-116 | each tab's id maps back to that tab |
| AdminPanel.Next | src/components/AdminPanel.tsx:16-116 | while logged out, typing sets the username or password and a login succeeds iff both equal admin/admin123, a failed one changing nothing; logout keeps the tab and credentials; while logged in, a tab click selects that tab and everything else but logout changes nothing |
| AdminPanel.InitialValid | src/components/AdminPanel.tsx:12-14 | the panel starts logged out on the schemes tab |
| AdminPanel.NextPreservesValid | src/components/AdminPanel.tsx:96-116 | every step keeps the tab one of the four ids, and a logged-in panel holding the demo credentials |
| AdminPanel.RunPreservesValid | src/components/AdminPanel.tsx:108-116 | the same holds after any sequence of events |
| AdminPanel.ActiveTabAlwaysKnown | src/components/AdminPanel.tsx:108-116 | from the start, the active tab is always one of schemes, alerts, feedback and settings |
| AdminPanel.DemoLoginSucceeds | src/components/AdminPanel.tsx:19-20 | typing the demo credentials and submitting logs in |
| AdminPanel.LogoutThenLoginRestores | src/components/AdminPanel.tsx:96 | logout keeps the credentials and the tab, so submitting again restores the same panel |
| AppRouter.Components | src/App.tsx:19-36 | each single view renders its own component, and the home view renders the hero, the scheme browser, the eligibility checker and the alerts card, in that order |
| AppRouter.ComponentsInjective | src/App.tsx:19-36 | no two views render the same components |
| AppRouter.RenderSection | src/App.tsx:17-38 | each of the five section names selects its own view, and every other name, home included, selects the home view |
| AppRouter.SectionForRoundTrip | src/App.tsx:18-28 | every view is selected by some section name |
| AppRouter.Next | src/App.tsx:45-96 | back leads home, a footer link sets its target, and a hero button sets its target only while the home view shows |
| AppRouter.FooterOpensSingleView | src/App.tsx:73-96 | every footer link opens a single view with the back bar shown |
| AppRouter.BackLeadsHome | src/App.tsx:45-49 | the back bar leads to home, which hides the bar and shows the home view |
| AppRouter.ProfileFallsThroughToHome | src/components/HeroSection.tsx:37 | the language button's profile section renders the home view, yet shows the back bar |
| AppRouter.NextPreservesReachable | src/App.tsx:45-96 | every click leads to home, profile or a footer target |
| AppRouter.RunPreservesReachable | src/App.tsx:45-96 | the same holds after any sequence of clicks |
| AppRouter.AlertsViewUnreachable | src/App.tsx:27-28 | no sequence of clicks from the start page reaches the router's alerts view |
| AppRouter.AlertsCardOnlyOnHome | src/App.tsx:27-35 | from the start page, the alerts card is on screen exactly when the home view is |

## Left out

- Speech: the voice hook, every spoken message and voice search. The announcement after a check is modelled as its language and count only; its wording and number formatting are not modelled.
- Login with an external authentication service, the contact form, the header markup and the hero markup. The hero only supplies section names to the router.
- Geolocation, the 4-second ticker timer, `alert()` pop-ups, JSX rendering and CSS classes. The severity classes are the one exception.
- The translations dictionary is not part of this model.
- Number parsing: landholding and income reach the model as `Option<real>` and `Option<int>`, with `None` standing for an absent or unparsable (`NaN`) value. Floating point is not modelled.
- Text.Lower: lower-cases ASCII `A`-`Z` only, while JavaScript's `toLowerCase` also folds non-ASCII capitals. The shipped texts are English and Devanagari, which has no letter case.
- NewsTicker.Headline: gives no headline for any language other than `en` and `hi`. JavaScript's property lookup would also reach inherited names such as `__proto__` or `constructor`, which only a hand-edited saved language can supply; that prototype chain is not modelled.
- NewsTicker.Step: requires a non-empty headline list. The list is a three-item constant that nothing shortens, and an empty list would break the render before any tick.
- AlertsAndLocation.Edited: counts lengths in Unicode characters, while the browser's `maxLength` and `length` count UTF-16 code units. A number containing characters outside the Basic Multilingual Plane, such as emoji, is cut and gated differently: ten emoji are ten characters here but twenty code units in the browser, which keeps only five of them.
- AlertsAndLocation.Next: an edit whose selection lies outside the field leaves the card unchanged. The browser never reports such an edit; the model only needs some total answer for it.
- Browser storage is a key-value map passed in; read and write failures are not modelled.
- Component unmount and remount, which reset local state such as the admin login and the alert opt-in, are not modelled. Each state machine runs within one mounted component.
- Empty-field login submissions: the browser refuses to submit them. The model treats them like a failed login, and the observable outcome is the same: nothing changes.

=== FILE: admin.dfy ===
/** The admin panel: a login form checked against fixed demo credentials, a logout button, and a
    sidebar of four tabs. The form is shown while logged out, the sidebar and logout button while
    logged in; events from the part not on screen cannot happen and change nothing. */
module AdminPanel {
  import opened Wrappers
  import Machines

  const DemoUsername := "admin"
  const DemoPassword := "admin123"

  datatype Tab = SchemesTab | AlertsTab | FeedbackTab | SettingsTab

  /** The id a sidebar button stores as the active tab. */
  function TabId(t: Tab): string
  {
    match t
    case SchemesTab => "schemes"
    case AlertsTab => "alerts"
    case FeedbackTab => "feedback"
    case SettingsTab => "settings"
  }

  /** The tab with a given id, if any. */
  function TabOf(id: string): (t: Option<Tab>)
    ensures t.Some? ==> TabId(t.value) == id
  {
    if id == "schemes" then Some(SchemesTab)
    else if id == "alerts" then Some(AlertsTab)
    else if id == "feedback" then Some(FeedbackTab)
    else if id == "settings" then Some(SettingsTab)
    else None
  }

  /** Ids and tabs correspond one to one. */
  lemma TabIdRoundTrip(t: Tab)
    ensures TabOf(TabId(t)) == Some(t)
  {
  }

  datatype AdminState = AdminState(authenticated: bool, username: string, password: string, activeTab: string)

  const InitialAdmin := AdminState(false, "", "", TabId(SchemesTab))

  datatype AdminEvent =
    | UsernameChanged(username: string)
    | PasswordChanged(password: string)
    | LoginSubmitted
    | LogoutClicked
    | TabClicked(tab: Tab)

  /** The login test: both fields must equal the demo credentials exactly. */
  predicate CredentialsMatch(st: AdminState)
  {
    st.username == DemoUsername && st.password == DemoPassword
  }

  function Next(st: AdminState, e: AdminEvent): (st': AdminState)
    ensures !st.authenticated && e.UsernameChanged? ==> st' == st.(username := e.username)
    ensures !st.authenticated && e.PasswordChanged? ==> st' == st.(password := e.password)
    ensures e.LoginSubmitted? && !st.authenticated ==> (st'.authenticated <==> CredentialsMatch(st))
    ensures e.LoginSubmitted? && !st.authenticated && CredentialsMatch(st) ==> st' == st.(authenticated := true)
    ensures st.authenticated && !e.LogoutClicked? && !e.TabClicked? ==> st' == st
    ensures !st.authenticated && (e.LogoutClicked? || e.TabClicked?) ==> st' == st
    ensures e.LoginSubmitted? && !CredentialsMatch(st) ==> st' == st
    ensures e.LogoutClicked? ==> !st'.authenticated && st'.activeTab == st.activeTab
    ensures e.LogoutClicked? && st.authenticated ==> st' == st.(authenticated := false)
    ensures e.TabClicked? && st.authenticated ==> st' == st.(activeTab := TabId(e.tab))
    ensures !e.LogoutClicked? && !e.LoginSubmitted? ==> st'.authenticated == st.authenticated
    ensures st.authenticated ==> st'.username == st.username && st'.password == st.password
    ensures !st.authenticated ==> st'.activeTab == st.activeTab
  {
    if !st.authenticated then
      match e
      case UsernameChanged(v) => st.(username := v)
      case PasswordChanged(v) => st.(password := v)
      case LoginSubmitted => if CredentialsMatch(st) then st.(authenticated := true) else st
      case LogoutClicked => st
      case TabClicked(_) => st
    else
      match e
      case LogoutClicked => st.(authenticated := false)
      case TabClicked(t) => st.(activeTab := TabId(t))
      case _ => st
  }

  function Run(st: AdminState, events: seq<AdminEvent>): AdminState
  {
    Machines.Run(Next, st, events)
  }

  /** What the panel keeps true: the active tab is one of the four sidebar ids, and a logged-in
      panel holds the demo credentials. */
  predicate Valid(st: AdminState)
  {
    TabOf(st.activeTab).Some? && (st.authenticated ==> CredentialsMatch(st))
  }

  lemma InitialValid()
    ensures Valid(InitialAdmin)
    ensures !InitialAdmin.authenticated && InitialAdmin.activeTab == "schemes"
  {
  }

  lemma NextPreservesValid(st: AdminState, e: AdminEvent)
    requires Valid(st)
    ensures Valid(Next(st, e))
  {
    if e.TabClicked? && st.authenticated {
      TabIdRoundTrip(e.tab);
    }
  }

  lemma RunPreservesValid(st: AdminState, events: seq<AdminEvent>)
    requires Valid(st)
    ensures Valid(Run(st, events))
  {
    forall s, e | Valid(s)
      ensures Valid(Next(s, e))
    {
      NextPreservesValid(s, e);
    }
    Machines.RunPreserves(Next, Valid, st, events);
  }

  /** From the initial panel, whatever is done, the active tab is one of the four. */
  lemma ActiveTabAlwaysKnown(events: seq<AdminEvent>)
    ensures TabOf(Run(InitialAdmin, events).activeTab).Some?
  {
    InitialValid();
    RunPreservesValid(InitialAdmin, events);
  }

  /** Typing the demo credentials and submitting logs in, whatever was typed before. */
  lemma DemoLoginSucceeds(st: AdminState)
    requires !st.authenticated
    ensures Run(st, [UsernameChanged(DemoUsername), PasswordChanged(DemoPassword), LoginSubmitted]).authenticated
  {
    var s1 := Next(st, UsernameChanged(DemoUsername));
    var s2 := Next(s1, PasswordChanged(DemoPassword));
    var events := [UsernameChanged(DemoUsername), PasswordChanged(DemoPassword), LoginSubmitted];
    assert Run(st, events) == Run(s1, events[1..]);
    assert events[1..][1..] == [LoginSubmitted];
    assert Run(s1, events[1..]) == Run(s2, [LoginSubmitted]);
  }

  /** Logging out keeps the typed credentials and the tab, so submitting the form again returns to
      exactly the panel that was left. */
  lemma LogoutThenLoginRestores(st: AdminState)
    requires Valid(st) && st.authenticated
    ensures Run(st, [LogoutClicked, LoginSubmitted]) == st
  {
    var out := Next(st, LogoutClicked);
    assert Run(st, [LogoutClicked, LoginSubmitted]) == Run(out, [LoginSubmitted]);
  }
}

=== FILE: alerts.dfy ===
/** The SMS-alert card: a phone-number field limited to ten characters, an enable button that only
    works for exactly ten characters, and the colour given to each alert severity. */
module AlertsAndLocation {
  import Machines

  /** The most characters the phone field accepts. */
  const PhoneLength := 10

  datatype AlertsState = AlertsState(phoneNumber: string, alertsEnabled: bool)

  const InitialAlerts := AlertsState("", false)

  /** The enable handler's test: a non-empty number of exactly ten characters. Any characters
      count; nothing checks for digits. */
  predicate AcceptsPhone(phone: string)
  {
    phone != "" && |phone| == PhoneLength
  }

  /** The enable button is greyed out unless the field holds exactly ten characters. */
  predicate EnableButtonDisabled(st: AlertsState)
  {
    |st.phoneNumber| != PhoneLength
  }

  /** A selection inside the field: the characters from `start` up to `end` are replaced by an edit
      (an empty selection is the cursor position). */
  predicate SelectionIn(value: string, start: nat, end: nat)
  {
    start <= end <= |value|
  }

  /** What the field holds after the user replaces the selection of `value` with `inserted` (typing,
      pasting, or an empty insertion for a deletion). The field's ten-character limit refuses the
      inserted characters that do not fit and keeps everything outside the selection. */
  function Edited(value: string, start: nat, end: nat, inserted: string): (r: string)
    requires SelectionIn(value, start, end)
    ensures |r| >= start + (|value| - end)
    ensures r[..start] == value[..start]
    ensures r[|r| - (|value| - end)..] == value[end..]
    ensures r[start..|r| - (|value| - end)] <= inserted
    ensures |value| - (end - start) <= PhoneLength ==>
      |r| == if |value| - (end - start) + |inserted| <= PhoneLength
             then |value| - (end - start) + |inserted| else PhoneLength
    ensures |value| - (end - start) >= PhoneLength ==> r == value[..start] + value[end..]
  {
    var rest := |value| - (end - start);
    var room := if rest >= PhoneLength then 0 else PhoneLength - rest;
    var kept := if |inserted| <= room then inserted else inserted[..room];
    assert (value[..start] + kept + value[end..])[..start] == value[..start];
    value[..start] + kept + value[end..]
  }

  datatype AlertsEvent = PhoneEdited(start: nat, end: nat, inserted: string) | EnableClicked

  /** One user action. The field and the button exist only while alerts are off; an edit changes the
      field as the limit allows, and the handler stores the result; a click on the greyed-out button
      does nothing; a click on the live button runs the handler. */
  function Next(st: AlertsState, e: AlertsEvent): (st': AlertsState)
    ensures st.alertsEnabled ==> st' == st
    ensures e.EnableClicked? ==> st'.phoneNumber == st.phoneNumber
    ensures e.EnableClicked? ==> (st'.alertsEnabled <==> st.alertsEnabled || AcceptsPhone(st.phoneNumber))
    ensures e.PhoneEdited? && !st.alertsEnabled && SelectionIn(st.phoneNumber, e.start, e.end) ==>
      st' == AlertsState(Edited(st.phoneNumber, e.start, e.end, e.inserted), false)
    ensures e.PhoneEdited? && !SelectionIn(st.phoneNumber, e.start, e.end) ==> st' == st
  {
    if st.alertsEnabled then st
    else match e
      case PhoneEdited(start, end, inserted) =>
        if SelectionIn(st.phoneNumber, start, end) then st.(phoneNumber := Edited(st.phoneNumber, start, end, inserted))
        else st
      case EnableClicked =>
        if EnableButtonDisabled(st) then st
        else if AcceptsPhone(st.phoneNumber) then st.(alertsEnabled := true)
        else st
  }

  function Run(st: AlertsState, events: seq<AlertsEvent>): AlertsState
  {
    Machines.Run(Next, st, events)
  }

  /** Typing at the end of the field keeps the first ten characters of the old value followed by
      the new text, and all of it when it fits. */
  lemma TypingAtEndKeepsPrefix(value: string, inserted: string)
    requires |value| <= PhoneLength
    ensures var r := Edited(value, |value|, |value|, inserted);
      |r| <= PhoneLength && r <= value + inserted &&
      (|value + inserted| <= PhoneLength ==> r == value + inserted)
  {
    var r := Edited(value, |value|, |value|, inserted);
    assert r == value + r[|value|..];
  }

  /** A full field refuses any insertion that replaces nothing, wherever the cursor is: the number
      stays as it was. */
  lemma FullFieldRefusesInsertion(value: string, at: nat, inserted: string)
    requires |value| == PhoneLength && at <= |value|
    ensures Edited(value, at, at, inserted) == value
  {
    assert value[..at] + value[at..] == value;
  }

  /** The button and the handler agree: the button is live exactly when the handler would accept
      the number, so the handler's own emptiness test never decides anything. */
  lemma ButtonMatchesGate(st: AlertsState)
    ensures !EnableButtonDisabled(st) <==> AcceptsPhone(st.phoneNumber)
  {
  }

  /** What the card keeps true: the field never holds more than ten characters, and alerts are
      on only for a ten-character number. */
  predicate Valid(st: AlertsState)
  {
    |st.phoneNumber| <= PhoneLength && (st.alertsEnabled ==> |st.phoneNumber| == PhoneLength)
  }

  lemma NextPreservesValid(st: AlertsState, e: AlertsEvent)
    requires Valid(st)
    ensures Valid(Next(st, e))
  {
  }

  lemma RunPreservesValid(st: AlertsState, events: seq<AlertsEvent>)
    requires Valid(st)
    ensures Valid(Run(st, events))
  {
    forall s, e | Valid(s)
      ensures Valid(Next(s, e))
    {
      NextPreservesValid(s, e);
    }
    Machines.RunPreserves(Next, Valid, st, events);
  }

  /** Once enabled, alerts stay enabled, with the same number, whatever happens next. */
  lemma {:induction false} EnabledIsPermanent(st: AlertsState, events: seq<AlertsEvent>)
    requires st.alertsEnabled
    ensures Run(st, events) == st
    decreases |events|
  {
    if |events| > 0 {
      EnabledIsPermanent(Next(st, events[0]), events[1..]);
    }
  }

  /** From the initial card, typing ten characters of any kind and clicking enables alerts. */
  lemma TenCharactersEnable(phone: string)
    requires |phone| == PhoneLength
    ensures Run(InitialAlerts, [PhoneEdited(0, 0, phone), EnableClicked]) == AlertsState(phone, true)
  {
    var typed := Next(InitialAlerts, PhoneEdited(0, 0, phone));
    assert typed == AlertsState(phone, false);
    assert Run(InitialAlerts, [PhoneEdited(0, 0, phone), EnableClicked]) == Run(typed, [EnableClicked]);
  }

  /** Typing anything shorter and clicking leaves alerts off. */
  lemma ShortNumberDoesNotEnable(phone: string)
    requires |phone| < PhoneLength
    ensures !Run(InitialAlerts, [PhoneEdited(0, 0, phone), EnableClicked]).alertsEnabled
  {
    var typed := Next(InitialAlerts, PhoneEdited(0, 0, phone));
    assert typed == AlertsState(phone, false);
    assert Run(InitialAlerts, [PhoneEdited(0, 0, phone), EnableClicked]) == Run(typed, [EnableClicked]);
  }

  /** The colour family an alert severity is drawn in. */
  datatype Tone = Red | Yellow | Green | Gray

  /** High alerts are red, medium yellow, low green, and any other severity grey. */
  function SeverityTone(severity: string): (t: Tone)
    ensures t == Red <==> severity == "high"
    ensures t == Yellow <==> severity == "medium"
    ensures t == Green <==> severity == "low"
    ensures t == Gray <==> severity != "high" && severity != "medium" && severity != "low"
  {
    if severity == "high" then Red
    else if severity == "medium" then Yellow
    else if severity == "low" then Green
    else Gray
  }

  /** The background, border and text classes of each tone. */
  function ToneClasses(t: Tone): string
  {
    match t
    case Red => "bg-red-100 border-red-400 text-red-800"
    case Yellow => "bg-yellow-100 border-yellow-400 text-yellow-800"
    case Green => "bg-green-100 border-green-400 text-green-800"
    case Gray => "bg-gray-100 border-gray-400 text-gray-800"
  }

  function SeverityColor(severity: string): string
  {
    ToneClasses(SeverityTone(severity))
  }

  /** The four class strings differ in length. */
  lemma ToneClassLengths()
    ensures |ToneClasses(Red)| == 38 && |ToneClasses(Yellow)| == 47
    ensures |ToneClasses(Green)| == 44 && |ToneClasses(Gray)| == 41
  {
  }

  /** Different tones get different classes, so the three known severities and the fallback are
      told apart on screen. */
  lemma ToneClassesInjective(t: Tone, u: Tone)
    ensures ToneClasses(t) == ToneClasses(u) <==> t == u
  {
    ToneClassLengths();
  }

  /** Two severities get the same colour exactly when both are the same known severity or both are
      unknown. */
  lemma SameColorIffSameTone(s: string, s': string)
    ensures SeverityColor(s) == SeverityColor(s') <==> SeverityTone(s) == SeverityTone(s')
  {
    ToneClassesInjective(SeverityTone(s), SeverityTone(s'));
  }
}

=== FILE: app.dfy ===
/** The top-level router: the active section name picks what the main area shows, a back bar
    appears on every section but "home", and the footer and the hero buttons change the section. */
module AppRouter {
  import Machines

  /** What the main area shows for a section. */
  datatype View = SchemesView | EligibilityView | ContactView | AdminView | AlertsView | HomeView

  /** The components making up each view; the home view stacks the hero (with the news ticker),
      the scheme browser, the eligibility checker and the alerts card. */
  datatype Component = Hero | SchemeBrowser | EligibilityForm | ContactPage | AdminPage | AlertsCard

  function Components(v: View): (cs: seq<Component>)
    ensures v == SchemesView ==> cs == [SchemeBrowser]
    ensures v == EligibilityView ==> cs == [EligibilityForm]
    ensures v == ContactView ==> cs == [ContactPage]
    ensures v == AdminView ==> cs == [AdminPage]
    ensures v == AlertsView ==> cs == [AlertsCard]
    ensures v == HomeView ==> cs == [Hero, SchemeBrowser, EligibilityForm, AlertsCard]
    ensures v != HomeView <==> |cs| == 1
    ensures Hero in cs <==> v == HomeView
  {
    match v
    case SchemesView => [SchemeBrowser]
    case EligibilityView => [EligibilityForm]
    case ContactView => [ContactPage]
    case AdminView => [AdminPage]
    case AlertsView => [AlertsCard]
    case HomeView => [Hero, SchemeBrowser, EligibilityForm, AlertsCard]
  }

  const Home := "home"
  const InitialSection := Home

  /** The view for a section: five names select a single view; every other name, "home" among
      them, falls through to the home view. */
  function RenderSection(section: string): (v: View)
    ensures v == SchemesView <==> section == "schemes"
    ensures v == EligibilityView <==> section == "eligibility"
    ensures v == ContactView <==> section == "contact"
    ensures v == AdminView <==> section == "admin"
    ensures v == AlertsView <==> section == "alerts"
    ensures v == HomeView <==> section !in {"schemes", "eligibility", "contact", "admin", "alerts"}
  {
    if section == "schemes" then SchemesView
    else if section == "eligibility" then EligibilityView
    else if section == "contact" then ContactView
    else if section == "admin" then AdminView
    else if section == "alerts" then AlertsView
    else HomeView
  }

  /** A section name that selects each view. */
  function SectionFor(v: View): string
  {
    match v
    case SchemesView => "schemes"
    case EligibilityView => "eligibility"
    case ContactView => "contact"
    case AdminView => "admin"
    case AlertsView => "alerts"
    case HomeView => Home
  }

  /** Every view is reachable by name: rendering a view's section name gives that view back. */
  lemma SectionForRoundTrip(v: View)
    ensures RenderSection(SectionFor(v)) == v
  {
  }

  /** The back bar shows on every section other than "home". */
  predicate BackBarVisible(section: string)
  {
    section != Home
  }

  datatype FooterLink = FooterSchemes | FooterEligibility | FooterContact | FooterAdmin

  function FooterTarget(l: FooterLink): string
  {
    match l
    case FooterSchemes => "schemes"
    case FooterEligibility => "eligibility"
    case FooterContact => "contact"
    case FooterAdmin => "admin"
  }

  datatype HeroButton = ViewSchemes | CheckEligibility | ContactAdmin | ChooseLanguage

  /** The section each hero button asks for; the language button asks for "profile", which no
      case of the router names. */
  function HeroTarget(b: HeroButton): string
  {
    match b
    case ViewSchemes => "schemes"
    case CheckEligibility => "eligibility"
    case ContactAdmin => "contact"
    case ChooseLanguage => "profile"
  }

  datatype AppEvent = BackClicked | FooterClicked(link: FooterLink) | HeroClicked(button: HeroButton)

  /** One click. The footer is always on screen; the back bar only off "home"; the hero buttons only
      while the home view is shown. A click on something not shown changes nothing. */
  function Next(section: string, e: AppEvent): (section': string)
    ensures e.BackClicked? ==> section' == Home
    ensures e.FooterClicked? ==> section' == FooterTarget(e.link)
    ensures e.HeroClicked? ==> section' == (if RenderSection(section) == HomeView then HeroTarget(e.button) else section)
  {
    match e
    case BackClicked => if BackBarVisible(section) then Home else section
    case FooterClicked(l) => FooterTarget(l)
    case HeroClicked(b) => if RenderSection(section) == HomeView then HeroTarget(b) else section
  }

  function Run(section: string, events: seq<AppEvent>): string
  {
    Machines.Run(Next, section, events)
  }

  /** Each footer link opens a single view, with the back bar shown. */
  lemma FooterOpensSingleView(section: string, l: FooterLink)
    ensures RenderSection(Next(section, FooterClicked(l))) != HomeView
    ensures |Components(RenderSection(Next(section, FooterClicked(l))))| == 1
    ensures BackBarVisible(Next(section, FooterClicked(l)))
  {
  }

  /** The back bar leads home, where it disappears and the home view shows. */
  lemma BackLeadsHome(section: string)
    requires BackBarVisible(section)
    ensures Next(section, BackClicked) == Home
    ensures !BackBarVisible(Next(section, BackClicked))
    ensures RenderSection(Next(section, BackClicked)) == HomeView
  {
  }

  /** The language button's "profile" falls through to the home view, yet the back bar is shown,
      and pressing it only hides the bar: the page stays the home view. */
  lemma ProfileFallsThroughToHome()
    ensures Next(InitialSection, HeroClicked(ChooseLanguage)) == "profile"
    ensures RenderSection("profile") == HomeView
    ensures BackBarVisible("profile")
    ensures RenderSection(Next("profile", BackClicked)) == RenderSection("profile")
  {
  }

  /** What is on screen tells the view apart: no two views render the same components. */
  lemma ComponentsInjective(v: View, u: View)
    ensures Components(v) == Components(u) <==> v == u
  {
    if Components(v) == Components(u) {
      assert Components(v)[0] == Components(u)[0];
    }
  }

  /** The sections a visitor can reach from the start page. */
  predicate Reachable(section: string)
  {
    section in {Home, "schemes", "eligibility", "contact", "admin", "profile"}
  }

  lemma NextPreservesReachable(section: string, e: AppEvent)
    requires Reachable(section)
    ensures Reachable(Next(section, e))
  {
  }

  lemma RunPreservesReachable(section: string, events: seq<AppEvent>)
    requires Reachable(section)
    ensures Reachable(Run(section, events))
  {
    forall s, e | Reachable(s)
      ensures Reachable(Next(s, e))
    {
      NextPreservesReachable(s, e);
    }
    Machines.RunPreserves(Next, Reachable, section, events);
  }

  /** No control leads to the "alerts" section, so the router's single alerts view is never shown;
      the alerts card is only seen inside the home view. */
  lemma AlertsViewUnreachable(events: seq<AppEvent>)
    ensures RenderSection(Run(InitialSection, events)) != AlertsView
  {
    RunPreservesReachable(InitialSection, events);
  }

  /** Hence, from the start page, the alerts card is on screen exactly when the home view is. */
  lemma AlertsCardOnlyOnHome(events: seq<AppEvent>)
    ensures AlertsCard in Components(RenderSection(Run(InitialSection, events)))
        <==> RenderSection(Run(InitialSection, events)) == HomeView
  {
    AlertsViewUnreachable(events);
  }
}

=== FILE: catalog_facts.dfy ===
/** Facts about the shipped three-scheme catalog and what the two filters make of it. */
module CatalogFacts {
  import opened Wrappers
  import opened Seqs
  import opened SchemeTexts
  import opened Schemes
  import opened SchemeDiscovery
  import opened EligibilityChecker

  /** The three schemes carry pairwise distinct ids. */
  lemma IdsDistinct()
    ensures forall i, j :: 0 <= i < j < |Catalog| ==> Catalog[i].id != Catalog[j].id
  {
  }

  /** Only PM-KISAN has a deadline. */
  lemma OnlyPmKisanHasDeadline()
    ensures forall i :: 0 <= i < |Catalog| ==> (Catalog[i].deadline.Some? <==> Catalog[i].id == "1")
  {
  }

  /** Every shipped scheme is nationwide. */
  lemma CatalogIsNationwide()
    ensures forall i :: 0 <= i < |Catalog| ==> Catalog[i].state == AllIndia
  {
  }

  /** Filtering the catalog, element by element. */
  lemma FilterCatalog(p: Scheme -> bool)
    ensures Filter(p, Catalog)
         == (if p(PmKisan) then [PmKisan] else [])
          + (if p(CropInsurance) then [CropInsurance] else [])
          + (if p(SoilHealthCard) then [SoilHealthCard] else [])
  {
    FilterThree(p, PmKisan, CropInsurance, SoilHealthCard);
  }

  /** PM-KISAN is the only scheme with a small/marginal-farmer tag. */
  lemma PmKisanIsSmallholder()
    ensures HasSmallholderTag(PmKisan)
  {
    SmallAndMarginalTagHasSmall();
    assert PmKisan.eligibility[0] == SmallAndMarginalTag;
  }

  lemma CropInsuranceIsNotSmallholder()
    ensures !HasSmallholderTag(CropInsurance)
  {
    AllFarmersTagHasNeither();
    SharecroppersTagLacksSmall();
    SharecroppersTagLacksMarginal();
    assert CropInsurance.eligibility == [AllFarmersTag, SharecroppersTag];
  }

  lemma SoilHealthCardIsNotSmallholder()
    ensures !HasSmallholderTag(SoilHealthCard)
  {
    AllFarmersTagHasNeither();
    assert SoilHealthCard.eligibility == [AllFarmersTag];
  }

  /** Any landholding above 2 drops exactly PM-KISAN; a landholding of at most 2 drops nothing. */
  lemma LandholdingOnCatalog(v: real)
    ensures v > 2.0 ==> EligibleSchemes(Catalog, EmptyProfile.(landholding := Some(v))) == [CropInsurance, SoilHealthCard]
    ensures v <= 2.0 ==> EligibleSchemes(Catalog, EmptyProfile.(landholding := Some(v))) == Catalog
  {
    PmKisanIsSmallholder();
    CropInsuranceIsNotSmallholder();
    SoilHealthCardIsNotSmallholder();
    FilterCatalog(EligibleFor(EmptyProfile.(landholding := Some(v))));
  }

  /** Any state answer keeps all three schemes, in the checker and in the browser alike. */
  lemma AnyStateKeepsCatalog(state: string, language: Language)
    ensures EligibleSchemes(Catalog, EmptyProfile.(state := state)) == Catalog
    ensures FilteredSchemes(Catalog, language, EmptyQuery.(stateFilter := state)) == Catalog
  {
    CatalogIsNationwide();
    UnansweredProfileListsCatalog(Catalog, EmptyProfile);
    FilterCongruent(EligibleFor(EmptyProfile.(state := state)), EligibleFor(EmptyProfile), Catalog);
    StateFilterIdleOnNationwideCatalog(Catalog, language, EmptyQuery.(stateFilter := state));
    EmptyQueryShowsCatalog(Catalog, language);
  }

  /** The crops for which the crop insurance scheme survives a crop choice: its four listed crops,
      and no choice at all. The other two schemes use the all-crops sentinel and always survive. */
  const CropsKeepingInsurance: seq<string> := ["", "Rice", "Wheat", "Cotton", "Sugarcane"]

  function KeptForCrop(crop: string): seq<Scheme>
  {
    if crop in CropsKeepingInsurance then Catalog else [PmKisan, SoilHealthCard]
  }

  /** The crop test on each shipped scheme. */
  lemma CropTestOnSchemes(crop: string)
    ensures CropTest(crop)(PmKisan) && CropTest(crop)(SoilHealthCard)
    ensures CropTest(crop)(CropInsurance) <==> crop in CropsKeepingInsurance
  {
    assert AllCrops in PmKisan.crops && AllCrops in SoilHealthCard.crops;
    assert CropInsurance.crops == ["Rice", "Wheat", "Cotton", "Sugarcane"];
    assert AllCrops !in CropInsurance.crops;
  }

  lemma CropTestOnCatalog(crop: string)
    ensures Filter(CropTest(crop), Catalog) == KeptForCrop(crop)
  {
    CropTestOnSchemes(crop);
    FilterCatalog(CropTest(crop));
  }

  /** A crop choice in the scheme browser. */
  lemma BrowserCropChoiceOnCatalog(crop: string, language: Language)
    ensures FilteredSchemes(Catalog, language, EmptyQuery.(cropFilter := crop)) == KeptForCrop(crop)
  {
    OnlyCropChosen(Catalog, language, crop);
    CropTestOnCatalog(crop);
  }

  /** A crop answer in the eligibility checker. */
  lemma CheckerCropChoiceOnCatalog(crop: string)
    ensures EligibleSchemes(Catalog, EmptyProfile.(crop := crop)) == KeptForCrop(crop)
  {
    AgreesWithDiscovery(Catalog, EmptyProfile.(crop := crop), English);
    assert DiscoveryQueryFor(EmptyProfile.(crop := crop)) == EmptyQuery.(cropFilter := crop);
    BrowserCropChoiceOnCatalog(crop, English);
  }

  /** No shipped scheme is a loan, so choosing the loan type shows nothing. */
  lemma LoanTypeShowsNothing(language: Language)
    ensures FilteredSchemes(Catalog, language, EmptyQuery.(typeFilter := "loan")) == []
  {
    var q := EmptyQuery.(typeFilter := "loan");
    FilterCatalog(TypeTest("loan"));
    FilterIsConjunctionOfPasses(Catalog, language, q);
  }

  /** Searching "kisan" finds PM-KISAN in English, in either letter case, but not in Hindi, even
      though its Hindi name spells the same word in Devanagari. */
  lemma KisanSearchIsLocaleScoped()
    ensures MatchesSearch(English, "kisan", PmKisan)
    ensures MatchesSearch(English, "KISAN", PmKisan)
    ensures !MatchesSearch(Hindi, "kisan", PmKisan)
  {
    KisanInEnglishName();
    KisanNotInHindiTexts();
    assert PmKisan.name == PmKisanName;
    assert PmKisan.nameHi == PmKisanNameHi;
    assert PmKisan.descriptionHi == PmKisanDescriptionHi;
  }
}

=== FILE: discovery.dfy ===
/** The scheme browser's filter: a free-text search in the active language combined with
    state, crop and type drop-downs. An empty string means the control is unset. */
module SchemeDiscovery {
  import opened Seqs
  import opened Text
  import opened Schemes

  datatype Query = Query(searchTerm: string, stateFilter: string, cropFilter: string, typeFilter: string)

  /** The controls as the browser first shows them: nothing typed, nothing selected. */
  const EmptyQuery := Query("", "", "", "")

  /** The name and description searched: the Hindi ones when the language is "hi", else the English ones. */
  function SearchedName(language: Language, s: Scheme): string
  {
    if language == Hindi then s.nameHi else s.name
  }

  function SearchedDescription(language: Language, s: Scheme): string
  {
    if language == Hindi then s.descriptionHi else s.description
  }

  predicate MatchesSearch(language: Language, term: string, s: Scheme)
  {
    Includes(Lower(SearchedName(language, s)), Lower(term))
    || Includes(Lower(SearchedDescription(language, s)), Lower(term))
  }

  predicate MatchesState(stateFilter: string, s: Scheme)
  {
    stateFilter == "" || s.state == stateFilter || s.state == AllIndia
  }

  predicate MatchesCrop(cropFilter: string, s: Scheme)
  {
    cropFilter == "" || cropFilter in s.crops || AllCrops in s.crops
  }

  predicate MatchesType(typeFilter: string, s: Scheme)
  {
    typeFilter == "" || TypeName(s.kind) == typeFilter
  }

  predicate Matches(language: Language, q: Query, s: Scheme)
  {
    && MatchesSearch(language, q.searchTerm, s)
    && MatchesState(q.stateFilter, s)
    && MatchesCrop(q.cropFilter, s)
    && MatchesType(q.typeFilter, s)
  }

  /** Each test for a fixed query, as a predicate that can be handed to `Filter`. */
  function SearchTest(language: Language, term: string): Scheme -> bool
  {
    s => MatchesSearch(language, term, s)
  }

  function StateTest(stateFilter: string): Scheme -> bool
  {
    s => MatchesState(stateFilter, s)
  }

  function CropTest(cropFilter: string): Scheme -> bool
  {
    s => MatchesCrop(cropFilter, s)
  }

  function TypeTest(typeFilter: string): Scheme -> bool
  {
    s => MatchesType(typeFilter, s)
  }

  /** `Matches` for a fixed language and query, as the predicate handed to `Filter`. */
  function MatchesFor(language: Language, q: Query): Scheme -> bool
  {
    s => Matches(language, q, s)
  }

  /** The schemes shown for query `q`: exactly the catalog entries passing all four tests, in catalog order. */
  function FilteredSchemes(catalog: seq<Scheme>, language: Language, q: Query): (r: seq<Scheme>)
    ensures IsSubsequence(r, catalog)
    ensures forall s :: s in r <==>
      && s in catalog
      && MatchesSearch(language, q.searchTerm, s)
      && MatchesState(q.stateFilter, s)
      && MatchesCrop(q.cropFilter, s)
      && MatchesType(q.typeFilter, s)
  {
    Filter(MatchesFor(language, q), catalog)
  }

  /** The empty search term is found in every text, whatever the language. */
  lemma EmptySearchMatchesAll(language: Language, s: Scheme)
    ensures MatchesSearch(language, "", s)
  {
    assert Lower("") == "";
    IncludesEmpty(Lower(SearchedName(language, s)));
  }

  /** With nothing typed and nothing selected, every scheme is shown, in catalog order. */
  lemma EmptyQueryShowsCatalog(catalog: seq<Scheme>, language: Language)
    ensures FilteredSchemes(catalog, language, EmptyQuery) == catalog
  {
    forall i | 0 <= i < |catalog|
      ensures Matches(language, EmptyQuery, catalog[i])
    {
      EmptySearchMatchesAll(language, catalog[i]);
    }
    FilterAll(MatchesFor(language, EmptyQuery), catalog);
  }

  /** The search ignores ASCII case in the typed term. */
  lemma SearchIgnoresTermCase(catalog: seq<Scheme>, language: Language, q: Query)
    ensures FilteredSchemes(catalog, language, q.(searchTerm := Lower(q.searchTerm)))
         == FilteredSchemes(catalog, language, q)
  {
    LowerIdempotent(q.searchTerm);
    var q' := q.(searchTerm := Lower(q.searchTerm));
    FilterCongruent(MatchesFor(language, q'), MatchesFor(language, q), catalog);
  }

  /** The search looks at one language's texts only: two schemes that agree on the searched
      name and description are found or missed together, whatever their other-language texts. */
  lemma SearchIsLocaleScoped(language: Language, term: string, s: Scheme, t: Scheme)
    requires language == Hindi ==> s.nameHi == t.nameHi && s.descriptionHi == t.descriptionHi
    requires language != Hindi ==> s.name == t.name && s.description == t.description
    ensures MatchesSearch(language, term, s) <==> MatchesSearch(language, term, t)
  {
  }

  /** Selecting a value in any one control (from a query where it was unset) only removes schemes:
      the result is a subsequence of the result with that control cleared. */
  lemma SettingAFilterNarrows(catalog: seq<Scheme>, language: Language, q: Query)
    ensures IsSubsequence(FilteredSchemes(catalog, language, q), FilteredSchemes(catalog, language, q.(searchTerm := "")))
    ensures IsSubsequence(FilteredSchemes(catalog, language, q), FilteredSchemes(catalog, language, q.(stateFilter := "")))
    ensures IsSubsequence(FilteredSchemes(catalog, language, q), FilteredSchemes(catalog, language, q.(cropFilter := "")))
    ensures IsSubsequence(FilteredSchemes(catalog, language, q), FilteredSchemes(catalog, language, q.(typeFilter := "")))
  {
    forall s: Scheme
      ensures MatchesSearch(language, "", s)
    {
      EmptySearchMatchesAll(language, s);
    }
    var m := MatchesFor(language, q);
    FilterMonotone(m, MatchesFor(language, q.(searchTerm := "")), catalog);
    FilterMonotone(m, MatchesFor(language, q.(stateFilter := "")), catalog);
    FilterMonotone(m, MatchesFor(language, q.(cropFilter := "")), catalog);
    FilterMonotone(m, MatchesFor(language, q.(typeFilter := "")), catalog);
  }

  /** The filter is the four tests applied one after another. */
  lemma FilterIsConjunctionOfPasses(catalog: seq<Scheme>, language: Language, q: Query)
    ensures FilteredSchemes(catalog, language, q)
         == Filter(SearchTest(language, q.searchTerm),
              Filter(StateTest(q.stateFilter),
                Filter(CropTest(q.cropFilter),
                  Filter(TypeTest(q.typeFilter), catalog))))
  {
    var search, state, crop, kind := SearchTest(language, q.searchTerm), StateTest(q.stateFilter),
      CropTest(q.cropFilter), TypeTest(q.typeFilter);
    var all := And(search, And(state, And(crop, kind)));
    forall i | 0 <= i < |catalog|
      ensures MatchesFor(language, q)(catalog[i]) == all(catalog[i])
    {
    }
    FilterCongruent(MatchesFor(language, q), all, catalog);
    FilterConjunction(search, And(state, And(crop, kind)), catalog);
    FilterConjunction(state, And(crop, kind), catalog);
    FilterConjunction(crop, kind, catalog);
  }

  /** With nothing typed, only the three drop-downs decide. */
  lemma BlankSearchIsStructural(catalog: seq<Scheme>, language: Language, q: Query)
    requires q.searchTerm == ""
    ensures FilteredSchemes(catalog, language, q)
         == Filter(StateTest(q.stateFilter), Filter(CropTest(q.cropFilter), Filter(TypeTest(q.typeFilter), catalog)))
  {
    FilterIsConjunctionOfPasses(catalog, language, q);
    var rest := Filter(StateTest(q.stateFilter), Filter(CropTest(q.cropFilter), Filter(TypeTest(q.typeFilter), catalog)));
    forall i | 0 <= i < |rest|
      ensures SearchTest(language, "")(rest[i])
    {
      EmptySearchMatchesAll(language, rest[i]);
    }
    FilterAll(SearchTest(language, ""), rest);
  }

  /** Filtering the shown schemes again with the same query changes nothing. */
  lemma RefilteringIsStable(catalog: seq<Scheme>, language: Language, q: Query)
    ensures FilteredSchemes(FilteredSchemes(catalog, language, q), language, q) == FilteredSchemes(catalog, language, q)
  {
    FilterIdempotent(MatchesFor(language, q), catalog);
  }

  /** In a catalog of nationwide schemes the state control has no effect. */
  lemma StateFilterIdleOnNationwideCatalog(catalog: seq<Scheme>, language: Language, q: Query)
    requires forall i :: 0 <= i < |catalog| ==> catalog[i].state == AllIndia
    ensures FilteredSchemes(catalog, language, q) == FilteredSchemes(catalog, language, q.(stateFilter := ""))
  {
    var q' := q.(stateFilter := "");
    forall i | 0 <= i < |catalog|
      ensures Matches(language, q, catalog[i]) == Matches(language, q', catalog[i])
    {
      assert MatchesState(q.stateFilter, catalog[i]) && MatchesState(q'.stateFilter, catalog[i]);
    }
    FilterCongruent(MatchesFor(language, q), MatchesFor(language, q'), catalog);
  }

  /** A scheme listing no crops at all, not even the all-crops sentinel, is hidden by every crop
      choice and shown only while the crop control is unset. */
  lemma EmptyCropListNeedsNoCropChoice(catalog: seq<Scheme>, language: Language, q: Query, s: Scheme)
    requires s.crops == []
    ensures s in FilteredSchemes(catalog, language, q) ==> q.cropFilter == ""
  {
  }

  /** With only a crop chosen, the browser shows what the crop test alone keeps. */
  lemma OnlyCropChosen(catalog: seq<Scheme>, language: Language, crop: string)
    ensures FilteredSchemes(catalog, language, EmptyQuery.(cropFilter := crop)) == Filter(CropTest(crop), catalog)
  {
    forall i | 0 <= i < |catalog|
      ensures MatchesFor(language, EmptyQuery.(cropFilter := crop))(catalog[i]) == CropTest(crop)(catalog[i])
    {
      EmptySearchMatchesAll(language, catalog[i]);
    }
    FilterCongruent(MatchesFor(language, EmptyQuery.(cropFilter := crop)), CropTest(crop), catalog);
  }

  /** A state choice keeps the schemes of that state and the nationwide ones, in catalog order,
      and drops schemes of other states. */
  lemma StateChoiceExample(language: Language, a: Scheme, b: Scheme, c: Scheme)
    requires a.state == "Maharashtra" && b.state == "Punjab" && c.state == AllIndia
    ensures FilteredSchemes([a, b, c], language, EmptyQuery.(stateFilter := "Punjab")) == [b, c]
  {
    EmptySearchMatchesAll(language, a);
    EmptySearchMatchesAll(language, b);
    EmptySearchMatchesAll(language, c);
    FilterThree(MatchesFor(language, EmptyQuery.(stateFilter := "Punjab")), a, b, c);
  }
}

=== FILE: eligibility.dfy ===
/** The eligibility checker: a farmer's profile filtered against the catalog by state, crop and
    landholding, and the checker's state after the check button is pressed. */
module EligibilityChecker {
  import opened Wrappers
  import opened Seqs
  import opened Text
  import opened SchemeTexts
  import opened Schemes
  import SchemeDiscovery

  /** The profile form. An empty string is an unanswered drop-down; a landholding or income that is
      absent or did not parse as a number (NaN) is `None`. */
  datatype Profile = Profile(
    state: string,
    crop: string,
    landholding: Option<real>,
    income: Option<int>,
    category: string,
    farmerType: string)

  const EmptyProfile := Profile("", "", None, None, "", "")

  /** A landholding counts as given only when present and nonzero (zero is falsy). */
  predicate LandholdingGiven(landholding: Option<real>)
  {
    landholding.Some? && landholding.value != 0.0
  }

  /** A case-sensitive test for a tag reserving the scheme to small or marginal farmers. */
  predicate IsSmallholderTag(tag: string)
  {
    Includes(tag, "Small") || Includes(tag, "marginal")
  }

  predicate HasSmallholderTag(s: Scheme)
  {
    exists i :: 0 <= i < |s.eligibility| && IsSmallholderTag(s.eligibility[i])
  }

  predicate ExcludedByState(p: Profile, s: Scheme)
  {
    p.state != "" && s.state != AllIndia && s.state != p.state
  }

  predicate ExcludedByCrop(p: Profile, s: Scheme)
  {
    p.crop != "" && AllCrops !in s.crops && p.crop !in s.crops
  }

  predicate ExcludedByLandholding(p: Profile, s: Scheme)
  {
    HasSmallholderTag(s) && LandholdingGiven(p.landholding) && p.landholding.value > 2.0
  }

  predicate Eligible(p: Profile, s: Scheme)
  {
    !ExcludedByState(p, s) && !ExcludedByCrop(p, s) && !ExcludedByLandholding(p, s)
  }

  function EligibleFor(p: Profile): Scheme -> bool
  {
    s => Eligible(p, s)
  }

  /** The schemes listed as eligible: exactly the catalog entries no rule excludes, in catalog order. */
  function EligibleSchemes(catalog: seq<Scheme>, p: Profile): (r: seq<Scheme>)
    ensures IsSubsequence(r, catalog)
    ensures forall s :: s in r <==>
      && s in catalog
      && !ExcludedByState(p, s)
      && !ExcludedByCrop(p, s)
      && !ExcludedByLandholding(p, s)
  {
    Filter(EligibleFor(p), catalog)
  }

  /** The landholding rule in terms of the number entered: a smallholder scheme is dropped exactly
      when the holding exceeds 2; a holding of exactly 2, or none at all, keeps it. */
  lemma LandholdingRule(p: Profile, s: Scheme)
    requires HasSmallholderTag(s)
    ensures ExcludedByLandholding(p, s) <==> p.landholding.Some? && p.landholding.value > 2.0
    ensures p.landholding == Some(2.0) ==> !ExcludedByLandholding(p, s)
  {
  }

  /** A scheme tagged for small and marginal farmers is dropped for a 3.5 hectare holding and kept
      for 1.5 hectares or no answer. */
  lemma SmallholderExample(s: Scheme)
    requires s.eligibility == [SmallAndMarginalTag]
    ensures !Eligible(EmptyProfile.(landholding := Some(3.5)), s)
    ensures Eligible(EmptyProfile.(landholding := Some(1.5)), s)
    ensures Eligible(EmptyProfile, s)
  {
    SmallAndMarginalTagHasSmall();
    assert IsSmallholderTag(s.eligibility[0]);
  }

  /** The income, category and farmer-type answers never change the result. */
  lemma IgnoredFieldsIrrelevant(catalog: seq<Scheme>, p: Profile, p': Profile)
    requires p.state == p'.state && p.crop == p'.crop && p.landholding == p'.landholding
    ensures EligibleSchemes(catalog, p) == EligibleSchemes(catalog, p')
  {
    FilterCongruent(EligibleFor(p), EligibleFor(p'), catalog);
  }

  /** An unanswered profile (no state, no crop, no or zero landholding) lists the whole catalog. */
  lemma UnansweredProfileListsCatalog(catalog: seq<Scheme>, p: Profile)
    requires p.state == "" && p.crop == "" && !LandholdingGiven(p.landholding)
    ensures EligibleSchemes(catalog, p) == catalog
  {
    FilterAll(EligibleFor(p), catalog);
  }

  /** An entered holding of zero is treated like no answer. Since zero is not above 2 either, the
      truthiness test never changes the list: the rule reads the same as a plain "above 2" test. */
  lemma ZeroLandholdingLikeNone(catalog: seq<Scheme>, p: Profile)
    ensures EligibleSchemes(catalog, p.(landholding := Some(0.0)))
         == EligibleSchemes(catalog, p.(landholding := None))
    ensures forall s :: ExcludedByLandholding(p, s) <==>
      HasSmallholderTag(s) && p.landholding.Some? && p.landholding.value > 2.0
  {
    FilterCongruent(EligibleFor(p.(landholding := Some(0.0))), EligibleFor(p.(landholding := None)), catalog);
  }

  /** A larger landholding never makes more schemes eligible. */
  lemma LargerHoldingNarrows(catalog: seq<Scheme>, p: Profile, small: real, large: real)
    requires small <= large
    ensures IsSubsequence(EligibleSchemes(catalog, p.(landholding := Some(large))),
                          EligibleSchemes(catalog, p.(landholding := Some(small))))
    ensures IsSubsequence(EligibleSchemes(catalog, p), EligibleSchemes(catalog, p.(landholding := None)))
  {
    FilterMonotone(EligibleFor(p.(landholding := Some(large))), EligibleFor(p.(landholding := Some(small))), catalog);
    FilterMonotone(EligibleFor(p), EligibleFor(p.(landholding := None)), catalog);
  }

  /** The discovery query the state and crop answers correspond to: nothing typed, no type chosen. */
  function DiscoveryQueryFor(p: Profile): SchemeDiscovery.Query
  {
    SchemeDiscovery.Query("", p.state, p.crop, "")
  }

  /** Without a landholding, the eligibility check and the scheme browser agree: both apply the same
      state and crop rules, in any language. With a landholding the check lists a subsequence. */
  lemma AgreesWithDiscovery(catalog: seq<Scheme>, p: Profile, language: Language)
    ensures !LandholdingGiven(p.landholding) ==>
      EligibleSchemes(catalog, p) == SchemeDiscovery.FilteredSchemes(catalog, language, DiscoveryQueryFor(p))
    ensures IsSubsequence(EligibleSchemes(catalog, p),
                          SchemeDiscovery.FilteredSchemes(catalog, language, DiscoveryQueryFor(p)))
  {
    var d := SchemeDiscovery.MatchesFor(language, DiscoveryQueryFor(p));
    forall i | 0 <= i < |catalog|
      ensures Eligible(p, catalog[i]) ==> d(catalog[i])
      ensures !LandholdingGiven(p.landholding) ==> (Eligible(p, catalog[i]) == d(catalog[i]))
    {
      SchemeDiscovery.EmptySearchMatchesAll(language, catalog[i]);
    }
    if !LandholdingGiven(p.landholding) {
      FilterCongruent(EligibleFor(p), d, catalog);
    }
    FilterMonotone(EligibleFor(p), d, catalog);
  }

  /** What the checker holds: the profile being edited, the last list computed, and whether to show it. */
  datatype CheckerState = CheckerState(profile: Profile, eligibleSchemes: seq<Scheme>, showResults: bool)

  /** The checker as the page opens: an empty form, no list, nothing shown. */
  const InitialChecker := CheckerState(EmptyProfile, [], false)

  /** The spoken summary after a check: its language and the number of schemes it reports. */
  datatype Announcement = Announcement(language: Language, count: nat)

  datatype CheckOutcome = CheckOutcome(state: CheckerState, announcement: Announcement)

  /** Pressing the check button: store the eligible list, reveal it, and announce how many there are. */
  function CheckEligibility(st: CheckerState, catalog: seq<Scheme>, language: Language): (o: CheckOutcome)
    ensures o.state.profile == st.profile
    ensures o.state.showResults
    ensures o.state.eligibleSchemes == EligibleSchemes(catalog, st.profile)
    ensures IsSubsequence(o.state.eligibleSchemes, catalog)
    ensures forall s :: s in o.state.eligibleSchemes <==> s in catalog && Eligible(st.profile, s)
    ensures o.announcement == Announcement(language, |o.state.eligibleSchemes|)
  {
    var eligible := EligibleSchemes(catalog, st.profile);
    CheckOutcome(CheckerState(st.profile, eligible, true), Announcement(language, |eligible|))
  }

  /** One answer typed or selected in the profile form. */
  datatype FieldInput =
    | StateInput(state: string)
    | CropInput(crop: string)
    | LandholdingInput(landholding: Option<real>)
    | IncomeInput(income: Option<int>)
    | CategoryInput(category: string)
    | FarmerTypeInput(farmerType: string)

  /** Editing one field of the form: that field takes the entered value, every other field and the
      stored list and its visibility stay as they were. */
  function UpdateField(st: CheckerState, input: FieldInput): (st': CheckerState)
    ensures st'.eligibleSchemes == st.eligibleSchemes && st'.showResults == st.showResults
    ensures input.StateInput? ==> st'.profile.state == input.state
    ensures input.CropInput? ==> st'.profile.crop == input.crop
    ensures input.LandholdingInput? ==> st'.profile.landholding == input.landholding
    ensures input.IncomeInput? ==> st'.profile.income == input.income
    ensures input.CategoryInput? ==> st'.profile.category == input.category
    ensures input.FarmerTypeInput? ==> st'.profile.farmerType == input.farmerType
    ensures !input.StateInput? ==> st'.profile.state == st.profile.state
    ensures !input.CropInput? ==> st'.profile.crop == st.profile.crop
    ensures !input.LandholdingInput? ==> st'.profile.landholding == st.profile.landholding
    ensures !input.IncomeInput? ==> st'.profile.income == st.profile.income
    ensures !input.CategoryInput? ==> st'.profile.category == st.profile.category
    ensures !input.FarmerTypeInput? ==> st'.profile.farmerType == st.profile.farmerType
  {
    var p := st.profile;
    var p' := match input
      case StateInput(v) => p.(state := v)
      case CropInput(v) => p.(crop := v)
      case LandholdingInput(v) => p.(landholding := v)
      case IncomeInput(v) => p.(income := v)
      case CategoryInput(v) => p.(category := v)
      case FarmerTypeInput(v) => p.(farmerType := v);
    st.(profile := p')
  }

  /** Answering the income, category or farmer-type question does not change what the next check lists. */
  lemma IgnoredInputsDoNotChangeCheck(st: CheckerState, input: FieldInput, catalog: seq<Scheme>, language: Language)
    requires input.IncomeInput? || input.CategoryInput? || input.FarmerTypeInput?
    ensures CheckEligibility(UpdateField(st, input), catalog, language).state.eligibleSchemes
         == CheckEligibility(st, catalog, language).state.eligibleSchemes
  {
    IgnoredFieldsIrrelevant(catalog, UpdateField(st, input).profile, st.profile);
  }

  /** Editing the form answer by answer, in order. */
  function EditAll(st: CheckerState, inputs: seq<FieldInput>): (st': CheckerState)
    ensures st'.eligibleSchemes == st.eligibleSchemes && st'.showResults == st.showResults
    decreases |inputs|
  {
    if |inputs| == 0 then st else EditAll(UpdateField(st, inputs[0]), inputs[1..])
  }

  /** Until the check button is first pressed nothing is shown and no list is held, however the form
      is filled in; the first press then lists exactly what the filled-in profile is eligible for. */
  lemma NothingShownBeforeFirstCheck(inputs: seq<FieldInput>, catalog: seq<Scheme>, language: Language)
    ensures !EditAll(InitialChecker, inputs).showResults
    ensures EditAll(InitialChecker, inputs).eligibleSchemes == []
    ensures var o := CheckEligibility(EditAll(InitialChecker, inputs), catalog, language);
      o.state.showResults && o.state.eligibleSchemes == EligibleSchemes(catalog, EditAll(InitialChecker, inputs).profile)
  {
  }
}

=== FILE: language.dfy ===
/** The language hook: the interface language starts as English, is replaced on mount by a value
    saved in browser storage, and is toggled between English and Hindi, each toggle saving the new
    value. Storage is a plain key-value map. The app hands the toggle to the header, but the header
    takes no properties and renders no language button, so in the shipped page no control calls
    the toggle; the model describes what it does when called. */
module LanguageHook {
  import opened Schemes

  type Storage = map<string, string>

  /** The storage key the language is saved under. */
  const StorageKey := "rait-language"

  /** The saved value, if any; an absent key and an empty value both count as nothing saved. */
  predicate HasSavedLanguage(store: Storage)
  {
    StorageKey in store && store[StorageKey] != ""
  }

  /** The hook's state: the current language and the storage it writes to. */
  datatype LanguageState = LanguageState(language: Language, store: Storage)

  /** Before the mount effect runs, the language is English whatever is stored. */
  function Initial(store: Storage): (st: LanguageState)
    ensures st.language == English && st.store == store
  {
    LanguageState(English, store)
  }

  /** The language after the mount effect: a non-empty saved value is adopted as it is, without
      checking that it is one of the two languages; otherwise English stays. */
  function Mount(st: LanguageState): (st': LanguageState)
    ensures st'.store == st.store
    ensures HasSavedLanguage(st.store) ==> st'.language == st.store[StorageKey]
    ensures !HasSavedLanguage(st.store) ==> st'.language == st.language
  {
    if HasSavedLanguage(st.store) then st.(language := st.store[StorageKey]) else st
  }

  /** The language shown once the page has loaded with the given storage. */
  function LoadedLanguage(store: Storage): (l: Language)
    ensures HasSavedLanguage(store) ==> l == store[StorageKey]
    ensures !HasSavedLanguage(store) ==> l == English
    ensures l != ""
  {
    Mount(Initial(store)).language
  }

  /** The toggle: English becomes Hindi and anything else, an unexpected saved value included,
      becomes English. */
  function Toggle(l: Language): (r: Language)
    ensures r == English || r == Hindi
    ensures r == Hindi <==> l == English
  {
    if l == English then Hindi else English
  }

  /** Pressing the language button: switch, and save the new language under the storage key. */
  function ToggleLanguage(st: LanguageState): (st': LanguageState)
    ensures st'.language == Toggle(st.language)
    ensures StorageKey in st'.store && st'.store[StorageKey] == st'.language
    ensures forall k :: k != StorageKey ==> (k in st'.store <==> k in st.store)
    ensures forall k :: k != StorageKey && k in st.store ==> st'.store[k] == st.store[k]
  {
    var l := Toggle(st.language);
    LanguageState(l, st.store[StorageKey := l])
  }

  /** On the two real languages the toggle is an involution. */
  lemma ToggleInvolution(l: Language)
    requires l == English || l == Hindi
    ensures Toggle(Toggle(l)) == l
    ensures Toggle(l) != l
  {
  }

  /** Any other value is normalised: one toggle gives English, a second gives Hindi. */
  lemma ToggleNormalisesUnexpected(l: Language)
    requires l != English && l != Hindi
    ensures Toggle(l) == English && Toggle(Toggle(l)) == Hindi
  {
  }

  /** What a toggle saves is what the next page load shows: the saved value round-trips. */
  lemma ToggleSurvivesReload(st: LanguageState)
    ensures LoadedLanguage(ToggleLanguage(st).store) == ToggleLanguage(st).language
  {
  }

  /** Two toggles, then a reload, bring back a real language that was current before them. */
  lemma TwoTogglesThenReload(st: LanguageState)
    requires st.language == English || st.language == Hindi
    ensures LoadedLanguage(ToggleLanguage(ToggleLanguage(st)).store) == st.language
  {
    ToggleSurvivesReload(ToggleLanguage(st));
    ToggleInvolution(st.language);
  }
}

=== FILE: machines.dfy ===
/** Event-driven components as pure state machines: a step function applied to events in turn. */
module Machines {

  /** The state reached from `st` by taking one step per event, in order. */
  function Run<S, E>(next: (S, E) -> S, st: S, events: seq<E>): S
    decreases |events|
  {
    if |events| == 0 then st else Run(next, next(st, events[0]), events[1..])
  }

  /** An invariant that every single step keeps holds after any sequence of events. */
  lemma {:induction false} RunPreserves<S, E>(next: (S, E) -> S, inv: S -> bool, st: S, events: seq<E>)
    requires forall s, e :: inv(s) ==> inv(next(s, e))
    requires inv(st)
    ensures inv(Run(next, st, events))
    decreases |events|
  {
    if |events| > 0 {
      RunPreserves(next, inv, next(st, events[0]), events[1..]);
    }
  }
}

=== FILE: news_ticker.dfy ===
/** The news ticker: a fixed list of bilingual headlines and an index advanced by one, modulo the
    list's length, on every tick of a timer. */
module NewsTicker {
  import opened Wrappers
  import opened Schemes

  datatype NewsItem = NewsItem(en: string, hi: string)

  const News: seq<NewsItem> := [
    NewsItem("Monsoon forecast shows 95% normal rainfall expected this season",
             "मानसून पूर्वानुमान इस मौसम में 95% सामान्य वर्षा की संभावना दिखाता है"),
    NewsItem("New crop insurance scheme launched with enhanced coverage",
             "बेहतर कवरेज के साथ नई फसल बीमा योजना शुरू की गई"),
    NewsItem("Government announces ₹50,000 crore agriculture infrastructure fund",
             "सरकार ने ₹50,000 करोड़ कृषि अवसंरचना फंड की घोषणा की")
  ]

  const InitialIndex: nat := 0

  /** One tick: the next index, wrapping from the last item back to the first. The list is never
      empty (the ticker renders its current item before any tick), so `n > 0`. */
  function Step(i: nat, n: nat): (j: nat)
    requires n > 0
    ensures i < n ==> j < n
    ensures i + 1 < n ==> j == i + 1
    ensures i + 1 == n ==> j == 0
  {
    (i + 1) % n
  }

  /** The index after `k` ticks. */
  function Steps(i: nat, n: nat, k: nat): (j: nat)
    requires n > 0
    ensures i < n ==> j < n
  {
    if k == 0 then i else Step(Steps(i, n, k - 1), n)
  }

  /** The headline shown for an index: the English or Hindi text for those two language keys, and
      nothing for any other key. */
  function Headline(news: seq<NewsItem>, i: nat, language: Language): (h: Option<string>)
    requires i < |news|
    ensures language == English ==> h == Some(news[i].en)
    ensures language == Hindi ==> h == Some(news[i].hi)
    ensures h.None? <==> language != English && language != Hindi
  {
    if language == English then Some(news[i].en)
    else if language == Hindi then Some(news[i].hi)
    else None
  }

  /** The index stays a valid position in the list through any number of ticks, so the shown
      headline is always an element of the list. */
  lemma IndexAlwaysInBounds(n: nat, k: nat)
    requires n > 0
    ensures Steps(InitialIndex, n, k) < n
  {
  }

  /** Ticks compose: `a` ticks followed by `b` ticks are `a + b` ticks. */
  lemma {:induction false} StepsCompose(i: nat, n: nat, a: nat, b: nat)
    requires n > 0
    ensures Steps(Steps(i, n, a), n, b) == Steps(i, n, a + b)
  {
    if b > 0 {
      StepsCompose(i, n, a, b - 1);
    }
  }

  /** Before the end of the list is reached, `k` ticks advance the index by `k`. */
  lemma {:induction false} StepsWithoutWrap(i: nat, n: nat, k: nat)
    requires n > 0 && i + k < n
    ensures Steps(i, n, k) == i + k
  {
    if k > 0 {
      StepsWithoutWrap(i, n, k - 1);
    }
  }

  /** After exactly `n` ticks every valid index comes back to itself. */
  lemma FullCycle(i: nat, n: nat)
    requires n > 0 && i < n
    ensures Steps(i, n, n) == i
  {
    StepsWithoutWrap(i, n, n - 1 - i);
    assert Steps(i, n, n - i) == 0;
    StepsWithoutWrap(0, n, i);
    StepsCompose(i, n, n - i, i);
  }

  /** No index repeats within a cycle: indices `k` and `m` ticks after a start differ when
      `k < m < n`. */
  lemma NoEarlyRepeat(n: nat, k: nat, m: nat)
    requires k < m < n
    ensures Steps(InitialIndex, n, k) != Steps(InitialIndex, n, m)
  {
    StepsWithoutWrap(InitialIndex, n, k);
    StepsWithoutWrap(InitialIndex, n, m);
  }

  /** With the three shipped headlines the ticker shows items 0, 1, 2 and then 0 again. */
  lemma ShippedCycle()
    ensures |News| == 3
    ensures Steps(InitialIndex, |News|, 1) == 1
    ensures Steps(InitialIndex, |News|, 2) == 2
    ensures Steps(InitialIndex, |News|, 3) == 0
  {
    FullCycle(0, 3);
  }
}

=== FILE: scheme_texts.dfy ===
/** The catalog texts that the search and the smallholder test look into, with the facts about
    their characters that decide those tests. Kept apart from the catalog so that these facts are
    proved about the strings alone. */
module SchemeTexts {
  import opened Text

  const PmKisanName := "PM-KISAN Scheme"
  const PmKisanNameHi := "पीएम-किसान योजना"
  const PmKisanDescriptionHi := "किसान परिवारों को प्रत्यक्ष आय सहायता"
  const SmallAndMarginalTag := "Small and marginal farmers"
  const AllFarmersTag := "All farmers"
  const SharecroppersTag := "Sharecroppers with valid documents"

  /** PM-KISAN's first tag begins with "Small". */
  lemma SmallAndMarginalTagHasSmall()
    ensures Includes(SmallAndMarginalTag, "Small")
  {
    IncludesAt(SmallAndMarginalTag, "Small", 0);
  }

  /** "All farmers" lacks the 'S' of "Small" and the 'g' of "marginal". */
  lemma AllFarmersTagHasNeither()
    ensures !Includes(AllFarmersTag, "Small")
    ensures !Includes(AllFarmersTag, "marginal")
  {
    MissingCharNotIncluded(AllFarmersTag, "Small", 0);
    MissingCharNotIncluded(AllFarmersTag, "marginal", 3);
  }

  /** "Sharecroppers ..." is a capital 'S' followed by text without another 'S'. */
  lemma SharecroppersTagShape()
    ensures SharecroppersTag == ['S'] + SharecroppersTag[1..]
    ensures SharecroppersTag[1] == 'h'
    ensures 'S' !in SharecroppersTag[1..]
  {
  }

  /** So "Small" occurs nowhere in it: the one 'S' is followed by 'h'. */
  lemma SharecroppersTagLacksSmall()
    ensures !Includes(SharecroppersTag, "Small")
  {
    SharecroppersTagShape();
    HeadOnlyNotIncluded('S', SharecroppersTag[1..], "Small");
  }

  /** It has no 'g', so "marginal" is absent too. */
  lemma SharecroppersTagLacksMarginal()
    ensures !Includes(SharecroppersTag, "marginal")
  {
    MissingCharNotIncluded(SharecroppersTag, "marginal", 3);
  }

  /** "kisan", in either letter case, occurs in PM-KISAN's lower-cased English name. */
  lemma KisanInEnglishName()
    ensures Includes(Lower(PmKisanName), Lower("kisan"))
    ensures Lower("KISAN") == Lower("kisan")
  {
    assert Lower("kisan") == "kisan";
    assert Lower("KISAN") == "kisan";
    assert Lower(PmKisanName) == "pm-kisan scheme";
    IncludesAt("pm-kisan scheme", "kisan", 3);
  }

  /** PM-KISAN's Hindi name is Devanagari: no Latin letter occurs in it. */
  lemma HindiNameHasNoLatinLetter()
    ensures forall c :: 'A' <= c <= 'z' ==> c !in PmKisanNameHi
  {
  }

  /** Nor in its Hindi description. */
  lemma HindiDescriptionHasNoLatinLetter()
    ensures forall c :: 'A' <= c <= 'z' ==> c !in PmKisanDescriptionHi
  {
  }

  /** A text without Latin letters does not contain "kisan", even after lower-casing. */
  lemma KisanNotInLatinFreeText(text: string)
    requires forall c :: 'A' <= c <= 'z' ==> c !in text
    ensures !Includes(Lower(text), Lower("kisan"))
  {
    assert Lower("kisan") == "kisan";
    LetterMissingInBothCases(text, "kisan", 0);
  }

  /** Hence "kisan" occurs in neither of PM-KISAN's Hindi texts. */
  lemma KisanNotInHindiTexts()
    ensures !Includes(Lower(PmKisanNameHi), Lower("kisan"))
    ensures !Includes(Lower(PmKisanDescriptionHi), Lower("kisan"))
  {
    HindiNameHasNoLatinLetter();
    KisanNotInLatinFreeText(PmKisanNameHi);
    HindiDescriptionHasNoLatinLetter();
    KisanNotInLatinFreeText(PmKisanDescriptionHi);
  }
}

=== FILE: schemes.dfy ===
/** The scheme record, its type tag, the two interface languages and the shipped scheme catalog. */
module Schemes {
  import opened Wrappers
  import opened SchemeTexts

  /** The interface language. The type admits only "en" and "hi", but a value restored from
      browser storage is not checked, so any string can reach the components. */
  type Language = string

  const English: Language := "en"
  const Hindi: Language := "hi"

  datatype SchemeType = Subsidy | Insurance | Loan | Other

  /** The string a scheme type is compared against in the type filter. */
  function TypeName(t: SchemeType): string
  {
    match t
    case Subsidy => "subsidy"
    case Insurance => "insurance"
    case Loan => "loan"
    case Other => "other"
  }

  /** Different scheme types have different names, so the type filter matches at most one type. */
  lemma TypeNameInjective(t: SchemeType, u: SchemeType)
    ensures TypeName(t) == TypeName(u) <==> t == u
  {
  }

  datatype Scheme = Scheme(
    id: string,
    name: string,
    nameHi: string,
    description: string,
    descriptionHi: string,
    state: string,
    crops: seq<string>,
    kind: SchemeType,
    eligibility: seq<string>,
    benefits: string,
    benefitsHi: string,
    deadline: Option<string>)

  /** A scheme with this state is offered in every state. */
  const AllIndia := "All India"

  /** A scheme whose crop list holds this value covers every crop. */
  const AllCrops := "All Crops"

  const PmKisan := Scheme(
    "1",
    PmKisanName,
    PmKisanNameHi,
    "Direct income support to farmer families",
    PmKisanDescriptionHi,
    AllIndia,
    [AllCrops],
    Subsidy,
    [SmallAndMarginalTag, "Landholding up to 2 hectares"],
    "₹6,000 per year in three installments",
    "तीन किस्तों में प्रति वर्ष ₹6,000",
    Some("2024-03-31"))

  const CropInsurance := Scheme(
    "2",
    "Crop Insurance Scheme",
    "फसल बीमा योजना",
    "Insurance coverage for crop losses",
    "फसल नुकसान के लिए बीमा कवरेज",
    AllIndia,
    ["Rice", "Wheat", "Cotton", "Sugarcane"],
    Insurance,
    [AllFarmersTag, SharecroppersTag],
    "Up to 90% premium subsidy",
    "90% तक प्रीमियम सब्सिडी",
    None)

  const SoilHealthCard := Scheme(
    "3",
    "Soil Health Card Scheme",
    "मृदा स्वास्थ्य कार्ड योजना",
    "Free soil testing and nutrient recommendations",
    "मुफ्त मिट्टी परीक्षण और पोषक तत्व सुझाव",
    AllIndia,
    [AllCrops],
    Other,
    [AllFarmersTag],
    "Free soil testing every 2 years",
    "हर 2 साल में मुफ्त मिट्टी परीक्षण",
    None)

  /** The static catalog, in display order. */
  const Catalog: seq<Scheme> := [PmKisan, CropInsurance, SoilHealthCard]
}

=== FILE: seqs.dfy ===
/** Order-preserving filtering of sequences, the shape of JavaScript's `Array.prototype.filter`,
    with the facts about it that both scheme filters rely on. */
module Seqs {

  /** `a` can be obtained from `b` by deleting elements: nothing added, duplicated or reordered. */
  predicate IsSubsequence<T(==)>(a: seq<T>, b: seq<T>)
    decreases |b|
  {
    if |a| == 0 then true
    else if |b| == 0 then false
    else (a[0] == b[0] && IsSubsequence(a[1..], b[1..])) || IsSubsequence(a, b[1..])
  }

  /** The elements of `s` satisfying `p`, in their original order. */
  function Filter<T(==,!new)>(p: T -> bool, s: seq<T>): (r: seq<T>)
    ensures |r| <= |s|
    ensures forall x :: x in r <==> x in s && p(x)
    ensures IsSubsequence(r, s)
  {
    if |s| == 0 then []
    else if p(s[0]) then [s[0]] + Filter(p, s[1..]) else Filter(p, s[1..])
  }

  /** `Filter` keeps every copy of each `p`-element and no copy of any other element. */
  lemma {:induction false} FilterCounts<T(!new)>(p: T -> bool, s: seq<T>)
    ensures forall x :: multiset(Filter(p, s))[x] == if p(x) then multiset(s)[x] else 0
    decreases |s|
  {
    if |s| > 0 {
      FilterCounts(p, s[1..]);
      assert s == [s[0]] + s[1..];
    }
  }

  /** Filtering a sequence with a known head: the head is kept exactly when it satisfies `p`. */
  lemma FilterCons<T(!new)>(p: T -> bool, x: T, s: seq<T>)
    ensures Filter(p, [x] + s) == (if p(x) then [x] else []) + Filter(p, s)
  {
    assert ([x] + s)[1..] == s;
  }

  /** Filtering a three-element sequence, element by element. */
  lemma FilterThree<T(!new)>(p: T -> bool, x: T, y: T, z: T)
    ensures Filter(p, [x, y, z])
         == (if p(x) then [x] else []) + (if p(y) then [y] else []) + (if p(z) then [z] else [])
  {
    assert [x, y, z] == [x] + ([y] + ([z] + []));
    FilterCons(p, x, [y] + ([z] + []));
    FilterCons(p, y, [z] + []);
    FilterCons(p, z, []);
  }

  /** A subsequence never holds more copies of a value than the sequence it came from. */
  lemma {:induction false} SubsequenceMultiset<T>(a: seq<T>, b: seq<T>)
    requires IsSubsequence(a, b)
    ensures multiset(a) <= multiset(b)
    decreases |b|
  {
    if |a| == 0 {
    } else {
      assert b == [b[0]] + b[1..];
      if a[0] == b[0] && IsSubsequence(a[1..], b[1..]) {
        SubsequenceMultiset(a[1..], b[1..]);
        assert a == [a[0]] + a[1..];
      } else {
        SubsequenceMultiset(a, b[1..]);
      }
    }
  }

  /** Filtering is characterised by its contract alone: a subsequence of `s` that keeps
      exactly the copies of the `p`-elements of `s` is `Filter(p, s)`. */
  lemma {:induction false} FilterUnique<T(!new)>(p: T -> bool, s: seq<T>, r: seq<T>)
    requires IsSubsequence(r, s)
    requires forall x :: multiset(r)[x] == if p(x) then multiset(s)[x] else 0
    ensures r == Filter(p, s)
    decreases |s|
  {
    if |s| == 0 {
    } else {
      var x := s[0];
      assert s == [x] + s[1..];
      if |r| > 0 && r[0] == x && IsSubsequence(r[1..], s[1..]) {
        assert r == [x] + r[1..];
        assert multiset(r)[x] > 0;
        assert p(x);
        forall y
          ensures multiset(r[1..])[y] == if p(y) then multiset(s[1..])[y] else 0
        {
          assert multiset(r)[y] == multiset([x])[y] + multiset(r[1..])[y];
          assert multiset(s)[y] == multiset([x])[y] + multiset(s[1..])[y];
        }
        FilterUnique(p, s[1..], r[1..]);
      } else {
        assert IsSubsequence(r, s[1..]);
        SubsequenceMultiset(r, s[1..]);
        assert multiset(s)[x] == multiset(s[1..])[x] + 1;
        assert multiset(r)[x] <= multiset(s[1..])[x];
        assert !p(x);
        forall y
          ensures multiset(r)[y] == if p(y) then multiset(s[1..])[y] else 0
        {
          assert multiset(s)[y] == multiset([x])[y] + multiset(s[1..])[y];
          if y == x {
            assert multiset(r)[y] == 0;
          }
        }
        FilterUnique(p, s[1..], r);
      }
    }
  }

  /** When every element satisfies `p`, filtering returns the sequence unchanged. */
  lemma {:induction false} FilterAll<T(!new)>(p: T -> bool, s: seq<T>)
    requires forall i :: 0 <= i < |s| ==> p(s[i])
    ensures Filter(p, s) == s
    decreases |s|
  {
    if |s| > 0 {
      FilterAll(p, s[1..]);
    }
  }

  /** Two predicates that agree on the elements of `s` filter it identically. */
  lemma {:induction false} FilterCongruent<T(!new)>(p: T -> bool, q: T -> bool, s: seq<T>)
    requires forall i :: 0 <= i < |s| ==> p(s[i]) == q(s[i])
    ensures Filter(p, s) == Filter(q, s)
    decreases |s|
  {
    if |s| > 0 {
      FilterCongruent(p, q, s[1..]);
    }
  }

  /** A stronger predicate keeps a subsequence of what a weaker one keeps. */
  lemma {:induction false} FilterMonotone<T(!new)>(p: T -> bool, q: T -> bool, s: seq<T>)
    requires forall i :: 0 <= i < |s| && p(s[i]) ==> q(s[i])
    ensures IsSubsequence(Filter(p, s), Filter(q, s))
    decreases |s|
  {
    if |s| > 0 {
      FilterMonotone(p, q, s[1..]);
      var fp, fq := Filter(p, s[1..]), Filter(q, s[1..]);
      if p(s[0]) {
        assert ([s[0]] + fp)[1..] == fp;
        assert ([s[0]] + fq)[1..] == fq;
      } else if q(s[0]) {
        assert ([s[0]] + fq)[1..] == fq;
        if |fp| > 0 {
          assert IsSubsequence(fp, ([s[0]] + fq)[1..]);
        }
      }
    }
  }

  /** The pointwise conjunction of two predicates. */
  function And<T>(p: T -> bool, q: T -> bool): T -> bool
  {
    x => p(x) && q(x)
  }

  /** Filtering by a conjunction is filtering twice, and the order of the two passes does not matter. */
  lemma {:induction false} FilterConjunction<T(!new)>(p: T -> bool, q: T -> bool, s: seq<T>)
    ensures Filter(And(p, q), s) == Filter(p, Filter(q, s))
    ensures Filter(p, Filter(q, s)) == Filter(q, Filter(p, s))
    decreases |s|
  {
    if |s| > 0 {
      FilterConjunction(p, q, s[1..]);
      var fq := Filter(q, s[1..]);
      var fp := Filter(p, s[1..]);
      if q(s[0]) {
        assert ([s[0]] + fq)[1..] == fq;
      }
      if p(s[0]) {
        assert ([s[0]] + fp)[1..] == fp;
      }
    }
  }

  /** Filtering twice by the same predicate is filtering once. */
  lemma {:induction false} FilterIdempotent<T(!new)>(p: T -> bool, s: seq<T>)
    ensures Filter(p, Filter(p, s)) == Filter(p, s)
  {
    var r := Filter(p, s);
    assert forall i :: 0 <= i < |r| ==> p(r[i]) by {
      forall i | 0 <= i < |r| ensures p(r[i]) {
        assert r[i] in r;
      }
    }
    FilterAll(p, r);
  }
}

=== FILE: text.dfy ===
/** The string operations the search uses: lower-casing and JavaScript's `String.prototype.includes`.
    Lower-casing is ASCII-only; characters outside 'A'..'Z' (Devanagari among them) are left alone. */
module Text {

  predicate IsUpperAscii(c: char)
  {
    'A' <= c <= 'Z'
  }

  function LowerChar(c: char): char
  {
    if IsUpperAscii(c) then (c as int + 32) as char else c
  }

  /** The string with every ASCII capital replaced by its small letter. */
  function Lower(s: string): (r: string)
    ensures |r| == |s|
    ensures forall i :: 0 <= i < |r| ==> !IsUpperAscii(r[i])
    ensures forall i :: 0 <= i < |r| ==> r[i] == s[i] || (IsUpperAscii(s[i]) && r[i] as int == s[i] as int + 32)
  {
    seq(|s|, i requires 0 <= i < |s| => LowerChar(s[i]))
  }

  /** `needle` occurs in `hay` starting at position `i`. */
  predicate OccursAt(hay: string, needle: string, i: int)
  {
    0 <= i && i + |needle| <= |hay| && hay[i..i + |needle|] == needle
  }

  /** `needle` occurs somewhere in `hay` as a contiguous block. */
  predicate Includes(hay: string, needle: string)
  {
    exists i :: 0 <= i <= |hay| - |needle| && OccursAt(hay, needle, i)
  }

  /** The empty string occurs in every string, at its start. */
  lemma IncludesEmpty(hay: string)
    ensures Includes(hay, "")
  {
    assert OccursAt(hay, "", 0);
  }

  /** An occurrence at a known position establishes `Includes`. */
  lemma IncludesAt(hay: string, needle: string, i: int)
    requires 0 <= i && i + |needle| <= |hay| && hay[i..i + |needle|] == needle
    ensures Includes(hay, needle)
  {
    assert OccursAt(hay, needle, i);
  }

  /** A needle holding a character that `hay` lacks does not occur in `hay`. */
  lemma MissingCharNotIncluded(hay: string, needle: string, k: int)
    requires 0 <= k < |needle| && needle[k] !in hay
    ensures !Includes(hay, needle)
  {
    forall i | 0 <= i <= |hay| - |needle|
      ensures !OccursAt(hay, needle, i)
    {
      assert hay[i + k] in hay;
      assert hay[i..i + |needle|][k] == hay[i + k];
    }
  }

  /** If the needle's first character appears in `hay` only at its head, and the second characters
      differ, the needle does not occur in `hay`. */
  lemma HeadOnlyNotIncluded(head: char, rest: string, needle: string)
    requires 2 <= |needle| && 1 <= |rest|
    requires needle[0] !in rest && rest[0] != needle[1]
    ensures !Includes([head] + rest, needle)
  {
    var hay := [head] + rest;
    forall i | 0 <= i <= |hay| - |needle|
      ensures !OccursAt(hay, needle, i)
    {
      if i == 0 {
        assert hay[..|needle|][1] == rest[0];
      } else {
        assert hay[i] == rest[i - 1] && rest[i - 1] in rest;
        assert hay[i..i + |needle|][0] == hay[i];
      }
    }
  }

  /** A case-insensitive search for a needle fails when some small letter of the needle is missing
      from the text in both its cases. */
  lemma LetterMissingInBothCases(text: string, needle: string, k: int)
    requires 0 <= k < |needle| && 'a' <= needle[k] <= 'z'
    requires needle[k] !in text && (needle[k] as int - 32) as char !in text
    ensures !Includes(Lower(text), needle)
  {
    LowerIntroducesNoLetter(text, needle[k]);
    MissingCharNotIncluded(Lower(text), needle, k);
  }

  /** Lower-casing twice is lower-casing once. */
  lemma LowerIdempotent(s: string)
    ensures Lower(Lower(s)) == Lower(s)
  {
  }

  /** A small ASCII letter appears in `Lower(s)` only if it or its capital appears in `s`. */
  lemma LowerIntroducesNoLetter(s: string, c: char)
    requires 'a' <= c <= 'z'
    requires c !in s && (c as int - 32) as char !in s
    ensures c !in Lower(s)
  {
    forall i | 0 <= i < |s|
      ensures Lower(s)[i] != c
    {
      assert s[i] in s;
    }
  }
}

=== FILE: wrappers.dfy ===
/** Optional values, used for form fields the user may leave empty or fill with text
    that does not parse as a number. */
module Wrappers {

  datatype Option<+T> = None | Some(value: T)
}
